=== FILE: README.md ===
# weichatpay: record, signer, XML codec and operation envelope

A Dafny model of the core of the `weichatpay` WeChat Pay client. It covers:

- **Records.** The key→value data record every request and response is built on (`WxPayDataBase`): presence, lookup, storing a value.
- **Signing.** The canonical `k=v&…` parameter string (`ToUrlParams`), the signature (`MakeSign`, `SetSign`) and its verification (`CheckSign`).
- **Wire codec.** The flat XML form (`ToXml`, `FromXml`) and the response reader (`WxPayResults.Init`, `InitFromArray`). `Init` checks the signature only when the gateway reports `return_code` = `SUCCESS`.
- **Operation envelope** (`WxPayApi`). For `unifiedOrder`, `orderQuery`, `closeOrder`, `refund` and `refundQuery`: the required-field checks in their fixed order, the injection of `appid`, `mch_id`, `nonce_str`, `spbill_create_ip` and the default `notify_url`, then signing, serialising and reading the answer. For `notify`: any parse or signature failure becomes `false`.

The modules follow the program's structure:

| file | module | contents |
|---|---|---|
| `wrappers.dfy` | `Wrappers`, `Errors` | `Option`, `Result`, `Outcome`; the failures the core raises |
| `strings.dfy` | `Strings` | Python's string order, `join`/`split`, substring search, hex digests, upper-casing |
| `records.dfy` | `Records` | records as sequences of fields with distinct keys; `Has`, `Get`, `Set` |
| `canonical.dfy` | `Canonical` | sorting by key, the field filter, the parameter string |
| `signer.dfy` | `Signer` | `MakeSign`, `SetSign`, `CheckSign` |
| `xml_codec.dfy` | `XmlCodec` | `ToXml`, the flat-XML parser, the round trip |
| `responses.dfy` | `Responses` | `InitFromArray`, `Init` |
| `api.dfy` | `Api` | validation, enrichment, the five operations, `notify`, the nonce |

Modelling choices:

- **A record is a sequence of fields with distinct keys.** The sequence keeps the insertion order of a Python `dict`. Its meaning is the map `ToMap`.
- **Values.** A value is a string, or `Nested` for a nested mapping. Only the parameter filter ever meets a `Nested` value; the XML writer refuses one.
- **MD5 is a parameter.** It is any function from text to 32 lower-case hex digits. Nothing else about it is assumed; in particular, injectivity is not.
- **Inputs made explicit.** The merchant configuration is a `Config` value. The transport is a function `post` from request XML to response XML. The nonce is an input string.
- **String order.** Python's string comparison is modelled by `LexLess`, a character-wise lexicographic order. It is proved irreflexive, asymmetric, transitive and total.

## Model

| member | source | states |
|---|---|---|
| Records.Has | lib/wxpay_data.py:150-151 | the `Is…Set` presence test, read as key membership of the mapping; `HasIffField` ties it to the fields |
| Records.HasIffField | lib/wxpay_data.py:29-30 | a key is present exactly when some field of the record carries it (membership, the intent of `hasattr` at line 30) |
| Records.Get | lib/wxpay_data.py:25-26 | the lookup succeeds exactly when the key is present; an absent key is a `KeyError` (`MissingField`) |
| Records.GetIsField | lib/wxpay_data.py:25-26 | a successful lookup returns the value of the field that carries the key |
| Records.Set | lib/wxpay_data.py:102-103 | after `values[key] = value` the mapping is the old one with only `key` updated; a present key keeps its position, an absent one is appended; lookups of every other key are unchanged |
| Records.SetElsewhere | lib/wxpay_data.py:102-103 | storing a value changes the mapping at that key only |
| Records.ValidDistinct | lib/wxpay_data.py:16 | a record, like the dict it models, never holds the same key at two positions |
| Canonical.SortByKey | lib/wxpay_data.py:65-66 | the fields rearranged into strictly ascending key order, with exactly the same fields and the same mapping |
| Canonical.SortedUnique | lib/wxpay_data.py:65-66 | a key-sorted record is determined by its mapping, so the sorting step's output depends on the mapping alone |
| Canonical.Filter | lib/wxpay_data.py:57-58 | a field is emitted exactly when its key is not `sign`, its value is not empty and its value is not a nested mapping |
| Canonical.FilterMap | lib/wxpay_data.py:57-58 | filtering a record restricts its mapping to the kept fields |
| Canonical.ToUrlParams | lib/wxpay_data.py:54-61 | the parameter string is empty exactly when no field of the record passes the filter |
| Canonical.UrlParamsParts | lib/wxpay_data.py:54-61 | for a record in which no key or value contains `&`: the parameter string is empty exactly when no field is kept; otherwise splitting it on `&` gives exactly one `key=value` per kept field, in record order, with no stray `&` |
| Canonical.CanonicalDependsOnlyOnKept | lib/wxpay_data.py:57-67 | records with the same kept mapping have the same sorted parameter string |
| Canonical.CanonicalString | lib/wxpay_data.py:64-67 | the sorted, filtered parameter string is empty exactly when the kept part of the mapping is empty |
| Signer.MakeSign | lib/wxpay_data.py:64-71 | the signature is 32 characters from `0-9A-F` |
| Signer.MakeSignOrderInsensitive | lib/wxpay_data.py:65-67 | two records with the same mapping, whatever their insertion order, get the same signature |
| Signer.MakeSignIgnoresSign | lib/wxpay_data.py:57-71 | two records that differ only in their `sign` entry get the same signature |
| Signer.MakeSignDependsOnlyOnKept | lib/wxpay_data.py:57-71 | empty values, nested values and `sign` cannot change the signature |
| Signer.IsSignSet | lib/wxpay_data.py:29-30 | whether `sign` is present, read as key membership as for `Records.Has` |
| Signer.GetSign | lib/wxpay_data.py:25-26 | `values['sign']` succeeds exactly when `sign` is set; otherwise it is a `KeyError` for `sign` |
| Signer.CheckSign | lib/wxpay_data.py:81-87 | verification fails with a signature error when `sign` is absent, and passes only when the stored `sign` equals the recomputed signature |
| Signer.SetSign | lib/wxpay_data.py:19-22 | the computed signature is stored under `sign` and returned; every other field keeps its value; the result passes `CheckSign` |
| Signer.CheckSignRejectsWrongSign | lib/wxpay_data.py:84-87 | a record whose `sign` is anything but the recomputed signature is rejected |
| Signer.CheckSignIffSetSign | lib/wxpay_data.py:81-87 | for any unsigned record `r0` holding the other fields of `r`, verification of `r` passes exactly when `r` has a `sign` equal to the one `SetSign` stores when signing `r0` |
| Signer.CheckSignAsWritten | lib/wxpay_data.py:81-87 | as written, a record holding `sign` fails with the signature error and one without it fails with a `KeyError` for `sign`, so no record ever passes |
| Signer.CheckSignAsWrittenRejectsSigned | lib/wxpay_data.py:82 | the as-written check rejects every record, freshly signed ones included |
| XmlCodec.ToXml | lib/wxpay_data.py:33-43 | an empty record, or one holding a nested value, is refused; otherwise the output starts with `<xml>` |
| XmlCodec.ToXmlAsWritten | lib/wxpay_data.py:33-43 | with line 39's closing tag, the writer refuses the same records as `ToXml` and writes the same text for every record without a numeric value |
| XmlCodec.FromXml | lib/wxpay_data.py:46-51 | empty input is refused; every refusal is `MalformedRecord`; a parsed record has distinct keys and string values only |
| XmlCodec.ParseFields | lib/wxpay_data.py:46-51 | a parsed element sequence never holds a key twice and holds only string values; every refusal is `MalformedRecord` |
| XmlCodec.ElementRoundTrip | lib/wxpay_data.py:37-41 | one written element, bare when numeric and in CDATA otherwise, parses back to the same field and leaves the rest of the input alone |
| XmlCodec.FieldsRoundTrip | lib/wxpay_data.py:37-42 | the written elements followed by `</xml>` parse back to the same fields in the same order |
| XmlCodec.XmlRoundTrip | lib/wxpay_data.py:33-51 | reading back what `ToXml` wrote gives the original record, for tag-safe keys and values without `]]>` |
| XmlCodec.ToXmlAsWrittenBreaksRoundTrip | lib/wxpay_data.py:39 | any numeric field makes the as-written output unreadable, while the corrected output round-trips |
| Responses.InitFromArray | lib/wxpay_data.py:94-99 | the given mapping is accepted unchanged when no check is requested, and otherwise exactly when its signature verifies |
| Responses.Init | lib/wxpay_data.py:106-113 | a parse failure propagates; a missing `return_code` is a `KeyError`; a non-`SUCCESS` response is returned as parsed, without a check; a parsed `SUCCESS` response is returned exactly when its signature verifies; no other error arises |
| Responses.InitAcceptsSignedResponse | lib/wxpay_data.py:106-113 | a signed `SUCCESS` response is read back exactly as it was sent |
| Responses.InitSkipsVerificationOnFailure | lib/wxpay_data.py:110-111 | a non-`SUCCESS` response is returned as parsed, whatever its `sign` entry holds |
| Responses.InitRejectsForgedResponse | lib/wxpay_data.py:112 | a `SUCCESS` response whose `sign` is missing or wrong is rejected |
| Api.FirstMissing | lib/wxpay_api.py:28-35 | the index of the first absent field of a list: every earlier one is present; no index means all are present |
| Api.ValidateUnifiedOrder | lib/wxpay_api.py:28-41 | a failure names a required field the record lacks; a pass means the four required fields are present, `openid` is present for `JSAPI` and `product_id` for `NATIVE` |
| Api.UnifiedOrderReportsFirstMissing | lib/wxpay_api.py:28-35 | `unifiedOrder` reports a missing `out_trade_no`, `body`, `total_fee` or `trade_type` exactly when it is the first absent one of the four, in that order |
| Api.UnifiedOrderTradeTypeRules | lib/wxpay_api.py:38-41 | with the four present, the check fails for `openid` exactly on a `JSAPI` payment without it, for `product_id` exactly on a `NATIVE` payment without it, and passes otherwise |
| Api.ValidateOrderQuery | lib/wxpay_api.py:74-75 | the check passes exactly when `out_trade_no` or `transaction_id` is present, and otherwise names both |
| Api.ValidateCloseOrder | lib/wxpay_api.py:100-101 | the check passes exactly when `out_trade_no` is present, and otherwise names it |
| Api.ValidateRefund | lib/wxpay_api.py:127-136 | a pass means one of `out_trade_no`, `transaction_id` and all four of `out_refund_no`, `total_fee`, `refund_fee`, `op_user_id` are present; a failure is the one-of error or names an absent field |
| Api.RefundReportsFirstFailure | lib/wxpay_api.py:127-136 | `refund` first needs one of `out_trade_no` and `transaction_id`, then reports the first absent one of `out_refund_no`, `total_fee`, `refund_fee`, `op_user_id`; it passes exactly when all checks hold |
| Api.ValidateRefundQuery | lib/wxpay_api.py:164-168 | the check passes exactly when one of `out_refund_no`, `out_trade_no`, `transaction_id`, `refund_id` is present, and otherwise names all four |
| Api.PrepareOrderQuery | lib/wxpay_api.py:74-81 | the missing-identifier failure happens exactly when both `out_trade_no` and `transaction_id` are absent; a passing record fails only with `MalformedRecord`, and never when it is flat; a prepared request is the signed, serialised record with identity fields |
| Api.PrepareCloseOrder | lib/wxpay_api.py:100-107 | the failure happens exactly when `out_trade_no` is absent; a passing record fails only with `MalformedRecord`, and never when it is flat; a prepared request is signed and serialised |
| Api.PrepareRefundQuery | lib/wxpay_api.py:164-174 | the failure happens exactly when all four of `out_refund_no`, `out_trade_no`, `transaction_id`, `refund_id` are absent; a passing record fails only with `MalformedRecord`, and never when it is flat; a prepared request is signed and serialised |
| Api.PrepareUnifiedOrder | lib/wxpay_api.py:28-55 | a failed check ends the call with its error; a passing record fails only with `MalformedRecord`, and never when its enrichment is flat; a prepared request carries the enriched record with a verifying signature and its XML |
| Api.PrepareRefund | lib/wxpay_api.py:127-142 | a failed check ends the call with its error; a passing record fails only with `MalformedRecord`, and never when it is flat; a prepared request carries the record with identity fields, a verifying signature and its XML |
| Api.WithNotifyUrl | lib/wxpay_api.py:44-45 | an existing `notify_url` is kept as it is; an absent one becomes the configured default; no other key changes |
| Api.WithCreateIp | lib/wxpay_api.py:49-50 | after the two writes `spbill_create_ip` is `1.1.1.1`; no other key changes and no trace of the first write remains |
| Api.WithIdentity | lib/wxpay_api.py:76-78 | `appid` and `mch_id` are the configured values and `nonce_str` is the nonce; no other key changes |
| Api.EnrichUnifiedOrder | lib/wxpay_api.py:44-51 | `notify_url` as above, `appid`, `mch_id`, `spbill_create_ip` = `1.1.1.1` and `nonce_str` set; every other key keeps its value and no other field appears |
| Api.SignAndSerialize | lib/wxpay_api.py:54-55 | the record sent differs from the enriched one only in `sign`, passes `CheckSign`, and is what the XML carries; a flat record always serialises |
| Api.SignedRequestRoundTrips | lib/wxpay_api.py:54-55 | whatever wire-safe record an operation signs, the gateway parses the request back to exactly the signed record, and its signature verifies |
| Api.UnifiedOrderRequestVerifies | lib/wxpay_api.py:44-55 | the gateway parses the `unifiedOrder` request back to the signed record, and that signature verifies with the shared secret |
| Api.Exchange | lib/wxpay_api.py:58-59 | the answer is what `Init` makes of the transport's reply to the request XML: a parse failure propagates, a non-`SUCCESS` reply is returned as parsed, a `SUCCESS` reply is returned exactly when its signature verifies; an answer always carries `return_code`; an error is a malformed reply, a missing `return_code` or a signature mismatch |
| Api.UnifiedOrder | lib/wxpay_api.py:25-62 | a validation failure is the result, whatever the transport does, and a missing-parameter error arises only from that validation; a passing record whose enrichment is flat is signed, sent through the transport and the reply read by `Init`; an answer always carries `return_code` and, when successful, a verified signature |
| Api.OrderQuery | lib/wxpay_api.py:71-88 | as `UnifiedOrder`, with the `orderQuery` check: its failure is the result, and a missing-parameter error arises only from it; a passing flat record gets its identity fields, is signed, sent, and the reply read by `Init` |
| Api.CloseOrder | lib/wxpay_api.py:97-114 | as `UnifiedOrder`, with the `closeOrder` check: its failure is the result, and a missing-parameter error arises only from it; a passing flat record gets its identity fields, is signed, sent, and the reply read by `Init` |
| Api.Refund | lib/wxpay_api.py:124-148 | as `UnifiedOrder`, with the `refund` checks: their failure is the result, and a missing-parameter error arises only from them; a passing flat record gets its identity fields, is signed, sent, and the reply read by `Init` |
| Api.RefundQuery | lib/wxpay_api.py:161-180 | as `UnifiedOrder`, with the `refundQuery` check: its failure is the result, and a missing-parameter error arises only from it; a passing flat record gets its identity fields, is signed, sent, and the reply read by `Init` |
| Api.Notify | lib/wxpay_api.py:183-191 | a parse or signature failure yields `false` and never escapes; otherwise the result is the callback's verdict on the parsed record |
| Api.NotifyPassesAuthentic | lib/wxpay_api.py:186-191 | an authentic signed `SUCCESS` notification reaches the callback with the fields as sent |
| Api.NotifyRejectsForged | lib/wxpay_api.py:186-190 | a `SUCCESS` notification with a missing or forged signature is answered `false` |
| Api.NotifyAsWritten | lib/wxpay_api.py:184 | parsing the constant `''` instead of the received body, `notify` answers `false` whatever arrived |
| Api.NotifyAsWrittenRefusesAll | lib/wxpay_api.py:184 | as written, `notify` parses `''` and refuses every notification, even one the corrected `Notify` accepts |
| Api.GetNonceStr | lib/wxpay_api.py:194-199 | the nonce has the requested length and every character is the drawn one from the lower-case alphanumeric alphabet |
| Api.GetNonceStrAsWritten | lib/wxpay_api.py:194-199 | as written, the nonce is always empty, so never a requested positive length |
| Api.NonceCdataSafe | lib/wxpay_api.py:195 | a nonce over that alphabet passes through CDATA unchanged |

## Left out

- HTTP transport (`postXmlCurl`), timeouts and the certificate flag: I/O. The transport is a function parameter `post`.
- `reportCostTime` and `getMillisecond`: timing side channels, stubs in the source.
- MD5 internals: MD5 is a parameter with only the 32-lower-hex-digit contract. So the model proves nothing that would need collision resistance, such as detecting every tampered field.
- Nonce randomness: `GetNonceStr` takes the random draws as a function `draw`, and the operations take the nonce as an input.
- General XML: entities, attributes, comments, whitespace, nested elements and duplicate tags. The PHP calls at `lib/wxpay_data.py:50` are replaced by a parser for the flat form the writer produces. A repeated tag is refused rather than overwritten.
- Unicode semantics of `str.isnumeric` and `str.upper`: numeric means a non-empty run of ASCII digits. Upper-casing is applied only to hex digests, where it is ASCII.
- Non-string values: integer values would crash `isnumeric`. Values are strings, or `Nested` for the dictionary filter of `ToUrlParams`.
- The shared class-level `values` dict (`lib/wxpay_data.py:16`): every record owns its own fields. The same goes for `MakeSign` assigning the sorted list back to `self.values` at line 66: the model sorts a copy.
- Configuration constants (`WxPayConfig`): a `Config` value given to each operation.
- `lib/wxpay_notify.py` `Handle`: it calls `notify()` without arguments and ignores the result.
- The one-line Get/Set/IsSet accessors of `WxPayUnifiedOrder` and `WxPayNotifyReply`: each is `Records.Get`, `Records.Set` or `Records.Has` on a fixed key.
- `replyNotify` (`lib/wxpay_api.py:203-204`), `GetValues` and `FromArray` (`lib/wxpay_data.py:74-75`, `:90-91`): `replyNotify` returns its argument, `GetValues` returns the whole record and `FromArray` replaces it, so there is nothing to prove about them.
- Api.Exchange, Api.Notify: the source calls `WxPayResults.Init(...)` on the class (`lib/wxpay_api.py:59`, `:85`, `:111`, `:145`, `:177`, `:187`), but `Init` is an instance method (`lib/wxpay_data.py:106`), so as written every response path raises `TypeError`, which `notify`'s `except WxPayException` does not catch. The model calls `Init` on a fresh result object, as evidently intended.
- Api.Notify: the source catches only `WxPayException`; a `KeyError` for a response without `return_code` would escape. The model answers `false` for every failure of `Init`: the gateway re-sends a notification it gets no answer to, so `notify` must answer rather than raise.
- Api.ValidateUnifiedOrder, Api.ValidateRefund and the other checks: the source constructs the exception without raising it (`lib/wxpay_api.py:29` and every other check), so as written a missing field is not reported, and `unifiedOrder` then raises `AttributeError` at `lib/wxpay_api.py:38` for every input, because `GetTrade_type` is not defined (see the next line). The model fails, as the comment at `lib/wxpay_api.py:19-20` promises.
- Accessors and request classes missing from `lib/wxpay_data.py`: the operations call `GetTrade_type`, `IsTotal_feeSet`, `IsTrade_typeSet`, `IsOpenidSet`, `IsProduct_idSet`, `IsNotify_urlSet`, `SetNotify_url`, `SetSpbill_create_ip`, `IsTransaction_idSet`, `IsOut_refund_noSet`, `IsRefund_feeSet`, `IsOp_user_idSet` and `IsRefund_idSet`, which no class defines, and there are no request classes for `orderQuery`, `closeOrder`, `refund` or `refundQuery`. As written these calls raise `AttributeError`. Each is modelled as `Records.Get`, `Records.Set` or `Records.Has` on its key, and every request is a plain record.
- XmlCodec.ToXml: a nested (dictionary) value makes the source raise `AttributeError` at `value.isnumeric()` (`lib/wxpay_data.py:38`). The model returns `MalformedRecord`, the same refusal as for an empty record.
- In-place update of the request object: each operation stores the identity fields, the default `notify_url`, the client IP and `sign` into the caller's `inputObj` (`lib/wxpay_api.py:44-54`). The model builds a new record and hands the caller back only the response, so the caller's request record is unchanged.
- Records.Has: `hasattr(self.values, key)` is false for every field name the source uses (`lib/wxpay_data.py:30`, `:151` and every `Is…Set`). The model uses key membership, the evident intent.
- Canonical.SortByKey: `lib/wxpay_data.py:66` calls `sorted` on the bound method `items` and raises. The model implements the comment's intent at line 65, ascending key order.
- Responses.InitFromArray: `lib/wxpay_data.py:97` lacks a colon, a `SyntaxError` that stops all of `lib/wxpay_data.py` from compiling, and `lib/wxpay_api.py` with it, since it imports that module at line 3. As written no operation of either file runs at all. The model reads the evident conditional. Each as-written member (`XmlCodec.ToXmlAsWritten`, `Signer.CheckSignAsWritten`, `Api.NotifyAsWritten`, `Api.GetNonceStrAsWritten`) isolates one line and reads the rest of the source as intended.

## Findings

| source | as written | input that shows it | evidently intended | confidence | as-written member | corrected member |
|---|---|---|---|---|---|---|
| lib/wxpay_data.py:39 | a numeric value is written `<k>v</k`, without the closing `>` | any record with an all-digit value, e.g. `total_fee` = `1` | `<k>v</k>` | high; not executed | XmlCodec.ToXmlAsWrittenBreaksRoundTrip | XmlCodec.XmlRoundTrip |
| lib/wxpay_data.py:82 | `if self.IsSignSet(): raise`, reading `IsSignSet` as key membership: raises when `sign` is present, and `GetSign` raises `KeyError` when it is absent. Literally `hasattr` (line 30) is always false, so line 83 never fires and `MakeSign` raises at line 66 | any record, e.g. one just signed by `SetSign` | `if not self.IsSignSet(): raise` | high; not executed | Signer.CheckSignAsWrittenRejectsSigned | Signer.SetSign |
| lib/wxpay_api.py:198 | `wx_str += ''` appends nothing, so the nonce is always empty | `getNonceStr()` with the default length 32 | append a random character of `chars` | high; not executed | Api.GetNonceStrAsWritten | Api.GetNonceStr |
| lib/wxpay_api.py:184 | `notify` parses the constant `''` instead of the received body; with `Init` called as intended (the class-level call at line 187 would raise `TypeError` first, see Left out), it answers `False` to every notification | any authentic signed `SUCCESS` notification | parse the received notification body | high; not executed | Api.NotifyAsWrittenRefusesAll | Api.Notify |

=== FILE: api.dfy ===
/**
 * The operation envelope (`WxPayApi`): for each request kind, check the
 * required fields in a fixed order, fill in the merchant identity, the
 * nonce and the per-operation defaults, sign, serialise, hand the XML to the
 * transport and read the response back through `Init`.
 *
 * The source constructs each validation exception without raising it
 * (lib/wxpay_api.py:29 and every other check); the documented contract
 * (lib/wxpay_api.py:19-20) is that a failed check ends the call, which is
 * what the model does. The transport (`postXmlCurl`) is a parameter.
 */
module Api {
  import opened Wrappers
  import opened Errors
  import opened Strings
  import opened Records
  import opened Signer
  import opened XmlCodec
  import opened Responses

  /** The merchant configuration (`WxPayConfig`), fixed before any call. */
  datatype Config = Config(appId: string, mchId: string, secret: string, notifyUrl: string)

  /** A signed request and the XML that carries it. */
  datatype Request = Request(record: Record, xml: string)

  const OutTradeNo := "out_trade_no"
  const TransactionId := "transaction_id"
  const Body := "body"
  const TotalFee := "total_fee"
  const TradeType := "trade_type"
  const OpenId := "openid"
  const ProductId := "product_id"
  const NotifyUrl := "notify_url"
  const AppId := "appid"
  const MchId := "mch_id"
  const SpbillCreateIp := "spbill_create_ip"
  const NonceStr := "nonce_str"
  const OutRefundNo := "out_refund_no"
  const RefundFee := "refund_fee"
  const OpUserId := "op_user_id"
  const RefundId := "refund_id"

  /** The terminal IP `unifiedOrder` finally stores (lib/wxpay_api.py:49-50). */
  const CreateIp := "1.1.1.1"

  const UnifiedOrderRequired := [OutTradeNo, Body, TotalFee, TradeType]
  const RefundRequired := [OutRefundNo, TotalFee, RefundFee, OpUserId]

  // ---------------------------------------------------------------------
  // Validation

  /** Index of the first of `fields` the record lacks. */
  function FirstMissing(r: Record, fields: seq<string>): (m: Option<nat>)
    ensures m.Some? ==> m.value < |fields| && !Has(r, fields[m.value])
    ensures m.Some? ==> forall j :: 0 <= j < m.value ==> Has(r, fields[j])
    ensures m.None? ==> forall j :: 0 <= j < |fields| ==> Has(r, fields[j])
  {
    if |fields| == 0 then None
    else if !Has(r, fields[0]) then Some(0)
    else
      match FirstMissing(r, fields[1..])
      case None => None
      case Some(i) => Some(i + 1)
  }

  /**
   * The checks of `unifiedOrder` (lib/wxpay_api.py:28-41): the four
   * required fields in order, then `openid` for `JSAPI` and `product_id` for
   * `NATIVE` payments.
   */
  function ValidateUnifiedOrder(r: Record): (o: Outcome<Error>)
    requires Valid(r)
    ensures o.Fail? ==> o.error.MissingRequired? && !Has(r, o.error.field)
    ensures o.Pass? ==> forall j :: 0 <= j < |UnifiedOrderRequired| ==> Has(r, UnifiedOrderRequired[j])
    ensures o.Pass? ==> (Get(r, TradeType) == Ok(Str("JSAPI")) ==> Has(r, OpenId))
    ensures o.Pass? ==> (Get(r, TradeType) == Ok(Str("NATIVE")) ==> Has(r, ProductId))
  {
    match FirstMissing(r, UnifiedOrderRequired)
    case Some(i) => Fail(MissingRequired(UnifiedOrderRequired[i]))
    case None =>
      if Get(r, TradeType) == Ok(Str("JSAPI")) && !Has(r, OpenId) then Fail(MissingRequired(OpenId))
      else if Get(r, TradeType) == Ok(Str("NATIVE")) && !Has(r, ProductId) then Fail(MissingRequired(ProductId))
      else Pass
  }

  /**
   * `unifiedOrder` reports the first absent field among `out_trade_no`,
   * `body`, `total_fee`, `trade_type`, and no other one.
   */
  lemma UnifiedOrderReportsFirstMissing(r: Record, i: nat)
    requires Valid(r) && i < |UnifiedOrderRequired|
    ensures ValidateUnifiedOrder(r) == Fail(MissingRequired(UnifiedOrderRequired[i])) <==>
              !Has(r, UnifiedOrderRequired[i]) && forall j :: 0 <= j < i ==> Has(r, UnifiedOrderRequired[j])
  {
    var req := UnifiedOrderRequired;
    match FirstMissing(r, req)
    case Some(m) =>
      if m < i {
        assert req[m] != req[i];
      } else if m > i {
        assert req[m] != req[i];
      }
    case None =>
      assert req[i] != OpenId && req[i] != ProductId;
  }

  /**
   * With the four required fields present, a `JSAPI` payment needs `openid`
   * and a `NATIVE` payment needs `product_id`; nothing else can fail.
   */
  lemma UnifiedOrderTradeTypeRules(r: Record)
    requires Valid(r)
    requires forall j :: 0 <= j < |UnifiedOrderRequired| ==> Has(r, UnifiedOrderRequired[j])
    ensures ValidateUnifiedOrder(r) == Fail(MissingRequired(OpenId)) <==>
              Get(r, TradeType) == Ok(Str("JSAPI")) && !Has(r, OpenId)
    ensures ValidateUnifiedOrder(r) == Fail(MissingRequired(ProductId)) <==>
              Get(r, TradeType) == Ok(Str("NATIVE")) && !Has(r, ProductId)
    ensures ValidateUnifiedOrder(r) == Pass <==>
              !(Get(r, TradeType) == Ok(Str("JSAPI")) && !Has(r, OpenId)) &&
              !(Get(r, TradeType) == Ok(Str("NATIVE")) && !Has(r, ProductId))
  {
    assert OpenId != ProductId;
  }

  /** `orderQuery` needs `out_trade_no` or `transaction_id` (lib/wxpay_api.py:74-75). */
  function ValidateOrderQuery(r: Record): (o: Outcome<Error>)
    ensures o.Pass? <==> Has(r, OutTradeNo) || Has(r, TransactionId)
    ensures o.Fail? ==> o.error == MissingOneOf([OutTradeNo, TransactionId])
  {
    if !Has(r, OutTradeNo) && !Has(r, TransactionId) then Fail(MissingOneOf([OutTradeNo, TransactionId]))
    else Pass
  }

  /** `closeOrder` needs `out_trade_no` (lib/wxpay_api.py:100-101). */
  function ValidateCloseOrder(r: Record): (o: Outcome<Error>)
    ensures o.Pass? <==> Has(r, OutTradeNo)
    ensures o.Fail? ==> o.error == MissingRequired(OutTradeNo)
  {
    if !Has(r, OutTradeNo) then Fail(MissingRequired(OutTradeNo)) else Pass
  }

  /**
   * The checks of `refund` (lib/wxpay_api.py:127-136): one of `out_trade_no`
   * and `transaction_id`, then `out_refund_no`, `total_fee`, `refund_fee`,
   * `op_user_id` in that order.
   */
  function ValidateRefund(r: Record): (o: Outcome<Error>)
    ensures o.Pass? ==> Has(r, OutTradeNo) || Has(r, TransactionId)
    ensures o.Pass? ==> forall j :: 0 <= j < |RefundRequired| ==> Has(r, RefundRequired[j])
    ensures o.Fail? ==> o.error == MissingOneOf([OutTradeNo, TransactionId])
                        || (o.error.MissingRequired? && !Has(r, o.error.field))
  {
    if !Has(r, OutTradeNo) && !Has(r, TransactionId) then Fail(MissingOneOf([OutTradeNo, TransactionId]))
    else
      match FirstMissing(r, RefundRequired)
      case Some(i) => Fail(MissingRequired(RefundRequired[i]))
      case None => Pass
  }

  /** `refund` reports the first failing check and no later one. */
  lemma RefundReportsFirstFailure(r: Record, i: nat)
    requires i < |RefundRequired|
    ensures ValidateRefund(r) == Fail(MissingOneOf([OutTradeNo, TransactionId])) <==>
              !Has(r, OutTradeNo) && !Has(r, TransactionId)
    ensures ValidateRefund(r) == Fail(MissingRequired(RefundRequired[i])) <==>
              (Has(r, OutTradeNo) || Has(r, TransactionId)) &&
              !Has(r, RefundRequired[i]) && forall j :: 0 <= j < i ==> Has(r, RefundRequired[j])
    ensures ValidateRefund(r) == Pass <==>
              (Has(r, OutTradeNo) || Has(r, TransactionId)) &&
              forall j :: 0 <= j < |RefundRequired| ==> Has(r, RefundRequired[j])
  {
    var req := RefundRequired;
    if Has(r, OutTradeNo) || Has(r, TransactionId) {
      match FirstMissing(r, req)
      case Some(m) =>
        if m < i {
          assert req[m] != req[i];
        } else if m > i {
          assert req[m] != req[i];
        }
      case None =>
    }
  }

  /**
   * `refundQuery` needs one of `out_refund_no`, `out_trade_no`,
   * `transaction_id`, `refund_id` (lib/wxpay_api.py:164-168).
   */
  function ValidateRefundQuery(r: Record): (o: Outcome<Error>)
    ensures o.Pass? <==> Has(r, OutRefundNo) || Has(r, OutTradeNo) || Has(r, TransactionId) || Has(r, RefundId)
    ensures o.Fail? ==> o.error == MissingOneOf([OutRefundNo, OutTradeNo, TransactionId, RefundId])
  {
    if !Has(r, OutRefundNo) && !Has(r, OutTradeNo) && !Has(r, TransactionId) && !Has(r, RefundId)
    then Fail(MissingOneOf([OutRefundNo, OutTradeNo, TransactionId, RefundId]))
    else Pass
  }

  // ---------------------------------------------------------------------
  // Enrichment

  /** A field one of the enrichment steps may store. */
  predicate Added(x: Field, cfg: Config, nonce: string)
  {
    || x == Field(NotifyUrl, Str(cfg.notifyUrl))
    || x == Field(AppId, Str(cfg.appId))
    || x == Field(MchId, Str(cfg.mchId))
    || x == Field(SpbillCreateIp, Str(CreateIp))
    || x == Field(NonceStr, Str(nonce))
  }

  /**
   * The identity fields every operation fills in (lib/wxpay_api.py:76-78 and
   * the same lines of the other operations): `appid`, `mch_id` and
   * `nonce_str`; every other field keeps its value.
   */
  function WithIdentity(r: Record, cfg: Config, nonce: string): (out: Record)
    requires Valid(r)
    ensures Valid(out)
    ensures Get(out, AppId) == Ok(Str(cfg.appId))
    ensures Get(out, MchId) == Ok(Str(cfg.mchId))
    ensures Get(out, NonceStr) == Ok(Str(nonce))
    ensures forall k :: k != AppId && k != MchId && k != NonceStr ==> Get(out, k) == Get(r, k)
    ensures forall x :: x in out ==> x in r || Added(x, cfg, nonce)
  {
    var r1 := Set(r, AppId, Str(cfg.appId));
    var r2 := Set(r1, MchId, Str(cfg.mchId));
    Set(r2, NonceStr, Str(nonce))
  }

  /** The identity fields are strings, so a flat record stays flat. */
  lemma WithIdentityFlat(r: Record, cfg: Config, nonce: string)
    requires Valid(r)
    ensures Flat(r) ==> Flat(WithIdentity(r, cfg, nonce))
  {
    if Flat(r) {
      var r1 := Set(r, AppId, Str(cfg.appId));
      var r2 := Set(r1, MchId, Str(cfg.mchId));
      SetFlat(r, AppId, Str(cfg.appId));
      SetFlat(r1, MchId, Str(cfg.mchId));
      SetFlat(r2, NonceStr, Str(nonce));
    }
  }

  /** The default `notify_url`, stored only when the caller set none (lib/wxpay_api.py:44-45). */
  function WithNotifyUrl(r: Record, cfg: Config): (out: Record)
    requires Valid(r)
    ensures Valid(out)
    ensures Has(r, NotifyUrl) ==> out == r
    ensures !Has(r, NotifyUrl) ==> Get(out, NotifyUrl) == Ok(Str(cfg.notifyUrl))
    ensures forall k :: k != NotifyUrl ==> Get(out, k) == Get(r, k)
    ensures forall x :: x in out ==> x in r || x == Field(NotifyUrl, Str(cfg.notifyUrl))
  {
    if Has(r, NotifyUrl) then r else Set(r, NotifyUrl, Str(cfg.notifyUrl))
  }

  /** The terminal IP, written twice in a row; the second write stays (lib/wxpay_api.py:49-50). */
  function WithCreateIp(r: Record): (out: Record)
    requires Valid(r)
    ensures Valid(out)
    ensures Get(out, SpbillCreateIp) == Ok(Str(CreateIp))
    ensures forall k :: k != SpbillCreateIp ==> Get(out, k) == Get(r, k)
    ensures forall x :: x in out ==> x in r || x == Field(SpbillCreateIp, Str(CreateIp))
  {
    var r1 := Set(r, SpbillCreateIp, Str("0.0.0.0"));
    var r2 := Set(r1, SpbillCreateIp, Str(CreateIp));
    forall x | x in r2
      ensures x in r || x == Field(SpbillCreateIp, Str(CreateIp))
    {
      if x in r1 && x !in r {
        assert x == Field(SpbillCreateIp, Str("0.0.0.0"));
        GetIsField(r2, SpbillCreateIp);
        var i :| 0 <= i < |r2| && r2[i] == x;
        var j :| 0 <= j < |r2| && r2[j] == Field(SpbillCreateIp, Str(CreateIp));
        assert r2[i].key == r2[j].key;
        assert i != j;
        ValidDistinct(r2, i, j);
        assert false;
      }
    }
    r2
  }

  /**
   * The enrichment of `unifiedOrder` (lib/wxpay_api.py:44-51): the default
   * `notify_url` when none is set, then `appid`, `mch_id`, the terminal IP
   * and `nonce_str`. Every other field keeps its value.
   */
  function EnrichUnifiedOrder(r: Record, cfg: Config, nonce: string): (out: Record)
    requires Valid(r)
    ensures Valid(out)
    ensures Has(r, NotifyUrl) ==> Get(out, NotifyUrl) == Get(r, NotifyUrl)
    ensures !Has(r, NotifyUrl) ==> Get(out, NotifyUrl) == Ok(Str(cfg.notifyUrl))
    ensures Get(out, AppId) == Ok(Str(cfg.appId))
    ensures Get(out, MchId) == Ok(Str(cfg.mchId))
    ensures Get(out, SpbillCreateIp) == Ok(Str(CreateIp))
    ensures Get(out, NonceStr) == Ok(Str(nonce))
    ensures forall k :: k !in {NotifyUrl, AppId, MchId, SpbillCreateIp, NonceStr} ==> Get(out, k) == Get(r, k)
    ensures forall x :: x in out ==> x in r || Added(x, cfg, nonce)
  {
    var r1 := WithNotifyUrl(r, cfg);
    var r2 := Set(r1, AppId, Str(cfg.appId));
    var r3 := Set(r2, MchId, Str(cfg.mchId));
    var r4 := WithCreateIp(r3);
    Set(r4, NonceStr, Str(nonce))
  }

  /** What was sent for an enriched record: signed last, so the signature covers every field. */
  predicate SentFor(req: Request, enriched: Record, secret: string, md5: Md5)
  {
    && Valid(req.record)
    && ToMap(req.record) - {SignKey} == ToMap(enriched) - {SignKey}
    && CheckSign(req.record, secret, md5) == Pass
    && ToXml(req.record) == Ok(req.xml)
  }

  /** `SetSign` then `ToXml` (lib/wxpay_api.py:54-55 and the same lines of the other operations). */
  function SignAndSerialize(r: Record, secret: string, md5: Md5): (res: Result<Request, Error>)
    requires Valid(r)
    ensures res.Ok? ==> SentFor(res.value, r, secret, md5)
    ensures Flat(r) ==> res.Ok?
    ensures res.Err? ==> res.error == MalformedRecord
  {
    var signed := SetSign(r, secret, md5);
    if Flat(r) then SetFlat(r, SignKey, Str(signed.sign)); Ok(Request(signed.record, ToXml(signed.record).value))
    else
      var xml :- ToXml(signed.record);
      Ok(Request(signed.record, xml))
  }

  // ---------------------------------------------------------------------
  // Request preparation: validate, enrich, sign, serialise

  /**
   * A failed check ends the call with its error before anything is sent;
   * a prepared request is the enriched record, signed and serialised, and a
   * passing record fails only when a value cannot be serialised.
   */
  predicate Prepared(check: Outcome<Error>, res: Result<Request, Error>, enriched: Record, secret: string, md5: Md5)
  {
    && (check.Fail? ==> res == Err(check.error))
    && (res.Ok? ==> check == Pass && SentFor(res.value, enriched, secret, md5))
    && (check == Pass && res.Err? ==> res.error == MalformedRecord)
  }

  function PrepareUnifiedOrder(r: Record, cfg: Config, md5: Md5, nonce: string): (res: Result<Request, Error>)
    requires Valid(r)
    ensures Prepared(ValidateUnifiedOrder(r), res, EnrichUnifiedOrder(r, cfg, nonce), cfg.secret, md5)
    ensures ValidateUnifiedOrder(r) == Pass && Flat(EnrichUnifiedOrder(r, cfg, nonce)) ==> res.Ok?
  {
    var check := ValidateUnifiedOrder(r);
    if check.Fail? then Err(check.error)
    else SignAndSerialize(EnrichUnifiedOrder(r, cfg, nonce), cfg.secret, md5)
  }

  function PrepareOrderQuery(r: Record, cfg: Config, md5: Md5, nonce: string): (res: Result<Request, Error>)
    requires Valid(r)
    ensures Prepared(ValidateOrderQuery(r), res, WithIdentity(r, cfg, nonce), cfg.secret, md5)
    ensures ValidateOrderQuery(r) == Pass && Flat(r) ==> res.Ok?
    ensures (res.Err? && res.error.MissingOneOf?) <==> !Has(r, OutTradeNo) && !Has(r, TransactionId)
  {
    var check := ValidateOrderQuery(r);
    if check.Fail? then Err(check.error)
    else
      WithIdentityFlat(r, cfg, nonce);
      SignAndSerialize(WithIdentity(r, cfg, nonce), cfg.secret, md5)
  }

  function PrepareCloseOrder(r: Record, cfg: Config, md5: Md5, nonce: string): (res: Result<Request, Error>)
    requires Valid(r)
    ensures Prepared(ValidateCloseOrder(r), res, WithIdentity(r, cfg, nonce), cfg.secret, md5)
    ensures ValidateCloseOrder(r) == Pass && Flat(r) ==> res.Ok?
    ensures (res.Err? && res.error == MissingRequired(OutTradeNo)) <==> !Has(r, OutTradeNo)
  {
    var check := ValidateCloseOrder(r);
    if check.Fail? then Err(check.error)
    else
      WithIdentityFlat(r, cfg, nonce);
      SignAndSerialize(WithIdentity(r, cfg, nonce), cfg.secret, md5)
  }

  function PrepareRefund(r: Record, cfg: Config, md5: Md5, nonce: string): (res: Result<Request, Error>)
    requires Valid(r)
    ensures Prepared(ValidateRefund(r), res, WithIdentity(r, cfg, nonce), cfg.secret, md5)
    ensures ValidateRefund(r) == Pass && Flat(r) ==> res.Ok?
  {
    var check := ValidateRefund(r);
    if check.Fail? then Err(check.error)
    else
      WithIdentityFlat(r, cfg, nonce);
      SignAndSerialize(WithIdentity(r, cfg, nonce), cfg.secret, md5)
  }

  function PrepareRefundQuery(r: Record, cfg: Config, md5: Md5, nonce: string): (res: Result<Request, Error>)
    requires Valid(r)
    ensures Prepared(ValidateRefundQuery(r), res, WithIdentity(r, cfg, nonce), cfg.secret, md5)
    ensures ValidateRefundQuery(r) == Pass && Flat(r) ==> res.Ok?
    ensures (res.Err? && res.error.MissingOneOf?) <==>
              !Has(r, OutRefundNo) && !Has(r, OutTradeNo) && !Has(r, TransactionId) && !Has(r, RefundId)
  {
    var check := ValidateRefundQuery(r);
    if check.Fail? then Err(check.error)
    else
      WithIdentityFlat(r, cfg, nonce);
      SignAndSerialize(WithIdentity(r, cfg, nonce), cfg.secret, md5)
  }

  // ---------------------------------------------------------------------
  // The gateway on the other side

  lemma FieldNamesAreTags()
    ensures IsTagName(NotifyUrl) && IsTagName(AppId) && IsTagName(MchId)
    ensures IsTagName(SpbillCreateIp) && IsTagName(NonceStr)
  {
    assert NotifyUrl == "notify_url" && AppId == "appid" && MchId == "mch_id";
    assert SpbillCreateIp == "spbill_create_ip" && NonceStr == "nonce_str";
  }

  /** The configuration and nonce travel unchanged through a CDATA section. */
  predicate CdataSafeInputs(cfg: Config, nonce: string)
  {
    CdataSafe(cfg.appId) && CdataSafe(cfg.mchId) && CdataSafe(cfg.notifyUrl) && CdataSafe(nonce)
  }

  lemma AddedWireSafe(x: Field, cfg: Config, nonce: string)
    requires Added(x, cfg, nonce) && CdataSafeInputs(cfg, nonce)
    ensures WireSafeField(x)
  {
    FieldNamesAreTags();
    NoBracketCdataSafe(CreateIp);
  }

  /** Enrichment keeps a wire-safe record wire-safe when the inputs are. */
  lemma EnrichWireSafe(r: Record, cfg: Config, nonce: string)
    requires Valid(r) && WireSafe(r) && CdataSafeInputs(cfg, nonce)
    ensures WireSafe(EnrichUnifiedOrder(r, cfg, nonce))
  {
    var out := EnrichUnifiedOrder(r, cfg, nonce);
    forall i | 0 <= i < |out|
      ensures WireSafeField(out[i])
    {
      assert out[i] in out;
      if out[i] in r {
        var j :| 0 <= j < |r| && r[j] == out[i];
      } else {
        AddedWireSafe(out[i], cfg, nonce);
      }
    }
  }

  /**
   * Whatever record an operation signs, the gateway parses the request back
   * to exactly the signed record, and the signature it finds verifies.
   */
  lemma SignedRequestRoundTrips(enriched: Record, secret: string, md5: Md5)
    requires Valid(enriched) && WireSafe(enriched)
    ensures SignAndSerialize(enriched, secret, md5).Ok?
    ensures var req := SignAndSerialize(enriched, secret, md5).value;
            FromXml(req.xml) == Ok(req.record) && CheckSign(req.record, secret, md5) == Pass
  {
    SetSignWireSafe(enriched, secret, md5);
    XmlRoundTrip(SetSign(enriched, secret, md5).record);
  }

  /** What `unifiedOrder` sends the gateway reads back and verifies. */
  lemma UnifiedOrderRequestVerifies(r: Record, cfg: Config, md5: Md5, nonce: string)
    requires Valid(r) && WireSafe(r) && CdataSafeInputs(cfg, nonce)
    requires ValidateUnifiedOrder(r) == Pass
    ensures PrepareUnifiedOrder(r, cfg, md5, nonce).Ok?
    ensures var req := PrepareUnifiedOrder(r, cfg, md5, nonce).value;
            FromXml(req.xml) == Ok(req.record) && CheckSign(req.record, cfg.secret, md5) == Pass
  {
    var enriched := EnrichUnifiedOrder(r, cfg, nonce);
    EnrichWireSafe(r, cfg, nonce);
    SignedRequestRoundTrips(enriched, cfg.secret, md5);
    assert PrepareUnifiedOrder(r, cfg, md5, nonce) == SignAndSerialize(enriched, cfg.secret, md5);
  }

  // ---------------------------------------------------------------------
  // Whole operations

  /** A response as `Init` hands it back: it carries `return_code`, and a successful one verified. */
  predicate Answered(resp: Record, secret: string, md5: Md5)
  {
    && Valid(resp)
    && Has(resp, ReturnCode)
    && (Get(resp, ReturnCode) == Ok(Str(Success)) ==> CheckSign(resp, secret, md5) == Pass)
  }

  /**
   * The result of a whole operation: a failed check is the result, whatever
   * the transport would have done; any answer is an `Answered` response;
   * and a missing-parameter error comes from the check and nowhere else.
   */
  predicate Guarded(check: Outcome<Error>, res: Result<Record, Error>, secret: string, md5: Md5)
  {
    && (check.Fail? ==> res == Err(check.error))
    && (res.Ok? ==> check == Pass && Answered(res.value, secret, md5))
    && (res.Err? && (res.error.MissingRequired? || res.error.MissingOneOf?) ==> check == Fail(res.error))
  }

  /**
   * Sends a prepared request through `post` and reads the answer
   * (lib/wxpay_api.py:58-59). The source calls `WxPayResults.Init(response)`
   * on the class although `Init` is an instance method
   * (lib/wxpay_data.py:106), which raises `TypeError`; the model calls it as
   * evidently intended, on a fresh result object.
   */
  function Exchange(req: Request, secret: string, md5: Md5, post: string -> string): (res: Result<Record, Error>)
    ensures res.Ok? ==> Answered(res.value, secret, md5)
    ensures res.Ok? ==> FromXml(post(req.xml)) == res
    ensures FromXml(post(req.xml)).Err? ==> res == Err(FromXml(post(req.xml)).error)
    ensures var reply := FromXml(post(req.xml));
            reply.Ok? && Has(reply.value, ReturnCode) && Get(reply.value, ReturnCode) != Ok(Str(Success)) ==> res == reply
    ensures var reply := FromXml(post(req.xml));
            (reply.Ok? && Get(reply.value, ReturnCode) == Ok(Str(Success))
             && CheckSign(reply.value, secret, md5) == Pass) ==> res == reply
    ensures res.Err? ==> res.error in {MalformedRecord, MissingField(ReturnCode), SignatureMismatch}
  {
    Init(post(req.xml), secret, md5)
  }

  /** `WxPayApi.unifiedOrder` (lib/wxpay_api.py:25-62). */
  function UnifiedOrder(r: Record, cfg: Config, md5: Md5, nonce: string, post: string -> string): (res: Result<Record, Error>)
    requires Valid(r)
    ensures Guarded(ValidateUnifiedOrder(r), res, cfg.secret, md5)
    ensures ValidateUnifiedOrder(r) == Pass && Flat(EnrichUnifiedOrder(r, cfg, nonce)) ==>
              exists req :: SentFor(req, EnrichUnifiedOrder(r, cfg, nonce), cfg.secret, md5)
                            && res == Init(post(req.xml), cfg.secret, md5)
  {
    match PrepareUnifiedOrder(r, cfg, md5, nonce)
    case Err(e) => Err(e)
    case Ok(req) => Exchange(req, cfg.secret, md5, post)
  }

  /** `WxPayApi.orderQuery` (lib/wxpay_api.py:71-88). */
  function OrderQuery(r: Record, cfg: Config, md5: Md5, nonce: string, post: string -> string): (res: Result<Record, Error>)
    requires Valid(r)
    ensures Guarded(ValidateOrderQuery(r), res, cfg.secret, md5)
    ensures ValidateOrderQuery(r) == Pass && Flat(r) ==>
              exists req :: SentFor(req, WithIdentity(r, cfg, nonce), cfg.secret, md5)
                            && res == Init(post(req.xml), cfg.secret, md5)
  {
    match PrepareOrderQuery(r, cfg, md5, nonce)
    case Err(e) => Err(e)
    case Ok(req) => Exchange(req, cfg.secret, md5, post)
  }

  /** `WxPayApi.closeOrder` (lib/wxpay_api.py:97-114). */
  function CloseOrder(r: Record, cfg: Config, md5: Md5, nonce: string, post: string -> string): (res: Result<Record, Error>)
    requires Valid(r)
    ensures Guarded(ValidateCloseOrder(r), res, cfg.secret, md5)
    ensures ValidateCloseOrder(r) == Pass && Flat(r) ==>
              exists req :: SentFor(req, WithIdentity(r, cfg, nonce), cfg.secret, md5)
                            && res == Init(post(req.xml), cfg.secret, md5)
  {
    match PrepareCloseOrder(r, cfg, md5, nonce)
    case Err(e) => Err(e)
    case Ok(req) => Exchange(req, cfg.secret, md5, post)
  }

  /** `WxPayApi.refund` (lib/wxpay_api.py:124-148). */
  function Refund(r: Record, cfg: Config, md5: Md5, nonce: string, post: string -> string): (res: Result<Record, Error>)
    requires Valid(r)
    ensures Guarded(ValidateRefund(r), res, cfg.secret, md5)
    ensures ValidateRefund(r) == Pass && Flat(r) ==>
              exists req :: SentFor(req, WithIdentity(r, cfg, nonce), cfg.secret, md5)
                            && res == Init(post(req.xml), cfg.secret, md5)
  {
    match PrepareRefund(r, cfg, md5, nonce)
    case Err(e) => Err(e)
    case Ok(req) => Exchange(req, cfg.secret, md5, post)
  }

  /** `WxPayApi.refundQuery` (lib/wxpay_api.py:161-180). */
  function RefundQuery(r: Record, cfg: Config, md5: Md5, nonce: string, post: string -> string): (res: Result<Record, Error>)
    requires Valid(r)
    ensures Guarded(ValidateRefundQuery(r), res, cfg.secret, md5)
    ensures ValidateRefundQuery(r) == Pass && Flat(r) ==>
              exists req :: SentFor(req, WithIdentity(r, cfg, nonce), cfg.secret, md5)
                            && res == Init(post(req.xml), cfg.secret, md5)
  {
    match PrepareRefundQuery(r, cfg, md5, nonce)
    case Err(e) => Err(e)
    case Ok(req) => Exchange(req, cfg.secret, md5, post)
  }

  // ---------------------------------------------------------------------
  // Payment notifications

  /**
   * `WxPayApi.notify` (lib/wxpay_api.py:183-191) with the notification body
   * as a parameter: a parse or signature failure becomes `false`, otherwise
   * the callback decides on the parsed mapping. The source parses the
   * constant `''` instead of the body (line 184); see `NotifyAsWritten`. It
   * also calls `WxPayResults.Init(xml)` on the class (line 187), which raises
   * a `TypeError` that the `except WxPayException` does not catch; the model
   * calls `Init` as intended.
   */
  function Notify(xml: string, secret: string, md5: Md5, callback: Record -> bool): (ok: bool)
    ensures Init(xml, secret, md5).Err? ==> !ok
    ensures Init(xml, secret, md5).Ok? ==> ok == callback(Init(xml, secret, md5).value)
  {
    match Init(xml, secret, md5)
    case Err(_) => false
    case Ok(values) => callback(values)
  }

  /** An authentic successful notification reaches the callback with the fields as sent. */
  lemma NotifyPassesAuthentic(r: Record, secret: string, md5: Md5, callback: Record -> bool)
    requires Valid(r) && WireSafe(r)
    requires Get(r, ReturnCode) == Ok(Str(Success))
    ensures var signed := SetSign(r, secret, md5).record;
            ToXml(signed).Ok? && Notify(ToXml(signed).value, secret, md5, callback) == callback(signed)
  {
    InitAcceptsSignedResponse(r, secret, md5);
  }

  /** A successful notification with a forged or missing signature is answered `false`. */
  lemma NotifyRejectsForged(r: Record, secret: string, md5: Md5, callback: Record -> bool)
    requires Valid(r) && WireSafe(r)
    requires Get(r, ReturnCode) == Ok(Str(Success))
    requires GetSign(r) != Ok(Str(MakeSign(r, secret, md5)))
    ensures ToXml(r).Ok? && !Notify(ToXml(r).value, secret, md5, callback)
  {
    InitRejectsForgedResponse(r, secret, md5);
  }

  /**
   * `notify` as written at line 184: it parses the constant `''` whatever
   * arrived. `Init` is called as intended (see `Notify`), so this isolates
   * line 184: every notification is answered `false`.
   */
  function NotifyAsWritten(secret: string, md5: Md5, callback: Record -> bool): (ok: bool)
    ensures !ok
  {
    assert FromXml("") == Err(MalformedRecord);
    Notify("", secret, md5, callback)
  }

  /** As written, every notification is refused, authentic ones included. */
  lemma NotifyAsWrittenRefusesAll(r: Record, secret: string, md5: Md5, callback: Record -> bool)
    requires Valid(r) && WireSafe(r)
    requires Get(r, ReturnCode) == Ok(Str(Success))
    requires callback(SetSign(r, secret, md5).record)
    ensures !NotifyAsWritten(secret, md5, callback)
    ensures var signed := SetSign(r, secret, md5).record;
            ToXml(signed).Ok? && Notify(ToXml(signed).value, secret, md5, callback)
  {
    NotifyPassesAuthentic(r, secret, md5, callback);
    assert FromXml("") == Err(MalformedRecord);
  }

  // ---------------------------------------------------------------------
  // Nonce

  const NonceChars := "abcdefghijklmnopqrstuvwxyz0123456789"

  predicate IsNonceChar(c: char)
  {
    'a' <= c <= 'z' || IsDigit(c)
  }

  lemma NonceAlphabet()
    ensures |NonceChars| == 36
    ensures forall i :: 0 <= i < |NonceChars| ==> IsNonceChar(NonceChars[i])
  {
  }

  /**
   * `getNonceStr` as intended (lib/wxpay_api.py:194-199): `length` characters
   * of the lower-case alphanumeric alphabet; `draw(i)` is the random choice
   * made for position `i`.
   */
  method GetNonceStr(length: nat, draw: nat -> nat) returns (nonce: string)
    ensures |nonce| == length
    ensures forall i :: 0 <= i < length ==> nonce[i] == NonceChars[draw(i) % |NonceChars|]
    ensures forall i :: 0 <= i < length ==> IsNonceChar(nonce[i])
  {
    NonceAlphabet();
    nonce := "";
    var i := 0;
    while i < length
      invariant 0 <= i <= length
      invariant |nonce| == i
      invariant forall j :: 0 <= j < i ==> nonce[j] == NonceChars[draw(j) % |NonceChars|]
      invariant forall j :: 0 <= j < i ==> IsNonceChar(nonce[j])
    {
      nonce := nonce + [NonceChars[draw(i) % |NonceChars|]];
      i := i + 1;
    }
  }

  /**
   * `getNonceStr` as written: the loop mirrors the source's `for`, and
   * line 198 appends `''`, so each pass appends nothing.
   */
  method GetNonceStrAsWritten(length: nat) returns (nonce: string)
    ensures nonce == ""
    ensures length > 0 ==> |nonce| != length
  {
    nonce := "";
    var i := 0;
    while i < length
      invariant nonce == ""
    {
      nonce := nonce + "";
      i := i + 1;
    }
  }

  /** A nonce from the alphabet passes through a CDATA section unchanged. */
  lemma NonceCdataSafe(nonce: string)
    requires forall i :: 0 <= i < |nonce| ==> IsNonceChar(nonce[i])
    ensures CdataSafe(nonce)
  {
    NoBracketCdataSafe(nonce);
  }
}

=== FILE: canonical.dfy ===
/**
 * Canonicalisation: the `k=v&...` string the signature is computed over
 * (`ToUrlParams`, and the key sort step of `MakeSign`).
 */
module Canonical {
  import opened Strings
  import opened Records

  // ---------------------------------------------------------------------
  // Sorting by key

  /** Keys strictly ascending in Python's string order. */
  predicate Sorted(r: Record)
  {
    forall i, j :: 0 <= i < j < |r| ==> LexLess(r[i].key, r[j].key)
  }

  lemma {:induction false} SortedValid(r: Record)
    requires Sorted(r)
    ensures Valid(r)
  {
    if |r| > 0 {
      assert Sorted(r[1..]);
      SortedValid(r[1..]);
      KeyInMap(r[1..], r[0].key);
      if r[0].key in ToMap(r[1..]) {
        var i :| 0 <= i < |r[1..]| && r[1..][i].key == r[0].key;
        assert LexLess(r[0].key, r[i + 1].key);
        LexLessIrreflexive(r[0].key);
        assert false;
      }
    }
  }

  /** Prepending a field whose key is below every key of a sorted record keeps it sorted. */
  lemma ConsSorted(f: Field, s: Record)
    requires Sorted(s)
    requires forall x :: x in s ==> LexLess(f.key, x.key)
    ensures Sorted([f] + s)
  {
    var r := [f] + s;
    forall i, j | 0 <= i < j < |r|
      ensures LexLess(r[i].key, r[j].key)
    {
      assert r[j] == s[j - 1];
      if i > 0 {
        assert r[i] == s[i - 1];
      }
    }
  }

  /** A field below every key of a sorted record goes in front. */
  lemma InsertFront(f: Field, s: Record)
    requires Sorted(s) && |s| > 0 && LexLess(f.key, s[0].key)
    ensures Sorted([f] + s)
  {
    forall x | x in s
      ensures LexLess(f.key, x.key)
    {
      var m :| 0 <= m < |s| && s[m] == x;
      if m > 0 {
        LexLessTransitive(f.key, s[0].key, x.key);
      }
    }
    ConsSorted(f, s);
  }

  /** A field above the first key goes into the tail; the head stays in front. */
  lemma InsertBehind(f: Field, s: Record, rest: Record)
    requires Sorted(s) && |s| > 0 && LexLess(s[0].key, f.key)
    requires Sorted(rest)
    requires forall x :: x in rest <==> x == f || x in s[1..]
    ensures Sorted([s[0]] + rest)
    ensures forall x :: x in [s[0]] + rest <==> x == f || x in s
  {
    forall x | x in rest
      ensures LexLess(s[0].key, x.key)
    {
      if x != f {
        var m :| 0 <= m < |s[1..]| && s[1..][m] == x;
        assert s[m + 1] == x;
      }
    }
    ConsSorted(s[0], rest);
    assert s == [s[0]] + s[1..];
  }

  /** One step of insertion sort. */
  function Insert(f: Field, s: Record): (r: Record)
    requires Sorted(s) && f.key !in ToMap(s)
    ensures Sorted(r)
    ensures |r| == |s| + 1
    ensures ToMap(r) == ToMap(s)[f.key := f.value]
    ensures forall x :: x in r <==> x == f || x in s
  {
    if |s| == 0 then [f]
    else if LexLess(f.key, s[0].key) then
      InsertFront(f, s);
      assert ([f] + s)[1..] == s;
      [f] + s
    else
      assert Sorted(s[1..]);
      LexLessTotal(f.key, s[0].key);
      var rest := Insert(f, s[1..]);
      InsertBehind(f, s, rest);
      assert ([s[0]] + rest)[1..] == rest;
      assert ToMap(s[1..])[f.key := f.value][s[0].key := s[0].value]
          == ToMap(s[1..])[s[0].key := s[0].value][f.key := f.value];
      [s[0]] + rest
  }

  /**
   * The ordering step of `MakeSign` (lib/wxpay_data.py:65-66): the fields
   * rearranged into ascending key order. The source line calls `sorted` on
   * the bound method `items` with a key that indexes the record, which
   * raises; the comment above it states the intent, ascending dictionary
   * order by key. The source also assigns the sorted list back to
   * `self.values`; the model sorts a copy and leaves the record as it was.
   */
  function SortByKey(r: Record): (s: Record)
    requires Valid(r)
    ensures Sorted(s)
    ensures |s| == |r|
    ensures ToMap(s) == ToMap(r)
    ensures forall x :: x in s <==> x in r
  {
    if |r| == 0 then []
    else
      var rest := SortByKey(r[1..]);
      forall x
        ensures x in r <==> x == r[0] || x in r[1..]
      {
        assert r == [r[0]] + r[1..];
      }
      Insert(r[0], rest)
  }

  lemma MapEmpty(r: Record)
    ensures ToMap(r) == map[] <==> |r| == 0
  {
    if |r| > 0 {
      assert r[0].key in ToMap(r);
    }
  }

  /** Two sorted records that denote the same mapping are the same sequence. */
  lemma {:induction false} SortedUnique(a: Record, b: Record)
    requires Sorted(a) && Sorted(b)
    requires ToMap(a) == ToMap(b)
    ensures a == b
    decreases |a|
  {
    MapEmpty(a);
    MapEmpty(b);
    if |a| > 0 {
      var ka, kb := a[0].key, b[0].key;
      if ka != kb {
        assert ka in ToMap(b);
        KeyInMap(b, ka);
        var j :| 0 <= j < |b| && b[j].key == ka;
        assert LexLess(kb, ka);
        assert kb in ToMap(a);
        KeyInMap(a, kb);
        var i :| 0 <= i < |a| && a[i].key == kb;
        assert LexLess(ka, kb);
        LexLessAsymmetric(ka, kb);
        assert false;
      }
      assert a[0] == b[0];
      SortedValid(a);
      SortedValid(b);
      assert ToMap(a[1..]) == ToMap(a) - {ka};
      assert ToMap(b[1..]) == ToMap(b) - {kb};
      assert Sorted(a[1..]) && Sorted(b[1..]);
      SortedUnique(a[1..], b[1..]);
      assert a == [a[0]] + a[1..];
      assert b == [b[0]] + b[1..];
    }
  }

  // ---------------------------------------------------------------------
  // Which fields take part in the signature

  /**
   * A field enters the URL parameter string unless its key is `sign`, its
   * value is the empty string, or its value is a nested mapping
   * (lib/wxpay_data.py:58).
   */
  predicate Kept(f: Field)
  {
    f.key != "sign" && f.value.Str? && f.value.s != ""
  }

  /** The fields `ToUrlParams` emits, in record order. */
  function Filter(r: Record): (out: Record)
    ensures forall x :: x in out <==> x in r && Kept(x)
    ensures |out| <= |r|
  {
    if |r| == 0 then []
    else
      var rest := Filter(r[1..]);
      forall x
        ensures x in r <==> x == r[0] || x in r[1..]
      {
        assert r == [r[0]] + r[1..];
      }
      if Kept(r[0]) then [r[0]] + rest else rest
  }

  /** The part of a mapping the signature depends on. */
  function KeptMap(m: map<string, Value>): map<string, Value>
  {
    map k | k in m && Kept(Field(k, m[k])) :: m[k]
  }

  /** Adding a fresh field to a mapping adds it to the kept part exactly when it is kept. */
  lemma KeptMapAdd(m: map<string, Value>, f: Field)
    requires f.key !in m
    ensures f.key !in KeptMap(m)
    ensures Kept(f) ==> KeptMap(m[f.key := f.value]) == KeptMap(m)[f.key := f.value]
    ensures !Kept(f) ==> KeptMap(m[f.key := f.value]) == KeptMap(m)
  {
  }

  lemma {:induction false} FilterMap(r: Record)
    requires Valid(r)
    ensures Valid(Filter(r))
    ensures ToMap(Filter(r)) == KeptMap(ToMap(r))
  {
    if |r| > 0 {
      FilterMap(r[1..]);
      var m := ToMap(r[1..]);
      KeptMapAdd(m, r[0]);
      if Kept(r[0]) {
        assert Filter(r)[1..] == Filter(r[1..]);
      }
    }
  }

  lemma {:induction false} FilterSorted(r: Record)
    requires Sorted(r)
    ensures Sorted(Filter(r))
  {
    if |r| > 0 {
      assert Sorted(r[1..]);
      FilterSorted(r[1..]);
      if Kept(r[0]) {
        forall x | x in Filter(r[1..])
          ensures LexLess(r[0].key, x.key)
        {
          var m :| 0 <= m < |r[1..]| && r[1..][m] == x;
          assert r[m + 1] == x;
        }
        ConsSorted(r[0], Filter(r[1..]));
      }
    }
  }

  // ---------------------------------------------------------------------
  // The URL parameter string

  /** `key + "=" + str(value)` for one field. */
  function Param(f: Field): string
  {
    f.key + "=" + (match f.value case Str(s) => s case Nested => "")
  }

  function Params(fs: Record): (ps: seq<string>)
    ensures |ps| == |fs|
    ensures forall i :: 0 <= i < |fs| ==> ps[i] == Param(fs[i])
  {
    if |fs| == 0 then [] else [Param(fs[0])] + Params(fs[1..])
  }

  /** `WxPayDataBase.ToUrlParams` (lib/wxpay_data.py:54-61). */
  function ToUrlParams(r: Record): (u: string)
    ensures u == "" <==> forall i :: 0 <= i < |r| ==> !Kept(r[i])
  {
    var fs := Filter(r);
    assert fs != [] ==> fs[0] in r && |Param(fs[0])| > 0;
    Join(Params(fs), '&')
  }

  /** Neither the key nor the value of `f` contains `&`. */
  predicate AmpFree(f: Field)
  {
    '&' !in f.key && (f.value.Str? ==> '&' !in f.value.s)
  }

  /** No `key=value` part of an `&`-free record contains `&`. */
  lemma ParamsAmpFree(r: Record)
    requires forall i :: 0 <= i < |r| ==> AmpFree(r[i])
    ensures forall i :: 0 <= i < |Params(Filter(r))| ==> '&' !in Params(Filter(r))[i]
  {
    var fs := Filter(r);
    var ps := Params(fs);
    forall i | 0 <= i < |ps|
      ensures '&' !in ps[i]
    {
      assert fs[i] in r && Kept(fs[i]);
      var m :| 0 <= m < |r| && r[m] == fs[i];
      ParamAmpFree(r[m]);
    }
  }

  lemma ParamAmpFree(f: Field)
    requires AmpFree(f) && Kept(f)
    ensures '&' !in Param(f)
  {
    assert Param(f) == f.key + ("=" + f.value.s);
  }

  /**
   * Reading the parameter string back: it is empty exactly when no field is
   * kept; otherwise splitting it on `&` gives one `key=value` part per kept
   * field, in record order, so no field is dropped or repeated and there is
   * no stray leading or trailing `&`.
   */
  lemma UrlParamsParts(r: Record)
    requires forall i :: 0 <= i < |r| ==> AmpFree(r[i])
    ensures ToUrlParams(r) == "" <==> Filter(r) == []
    ensures Filter(r) != [] ==> Split(ToUrlParams(r), '&') == Params(Filter(r))
    ensures forall x :: x in Filter(r) <==> x in r && Kept(x)
  {
    var fs := Filter(r);
    var ps := Params(fs);
    if |fs| > 0 {
      ParamsAmpFree(r);
      SplitJoin(ps, '&');
    }
  }

  /** The string hashed before the secret is appended: sorted, then filtered, then joined. */
  function CanonicalString(r: Record): (c: string)
    requires Valid(r)
    ensures c == "" <==> KeptMap(ToMap(r)) == map[]
  {
    var s := SortByKey(r);
    SortedValid(s);
    FilterMap(s);
    MapEmpty(Filter(s));
    ToUrlParams(s)
  }

  /**
   * The canonical string is a function of the kept part of the mapping
   * alone: neither insertion order, nor `sign`, nor empty or nested values
   * can change it.
   */
  lemma CanonicalDependsOnlyOnKept(r1: Record, r2: Record)
    requires Valid(r1) && Valid(r2)
    requires KeptMap(ToMap(r1)) == KeptMap(ToMap(r2))
    ensures CanonicalString(r1) == CanonicalString(r2)
  {
    var s1, s2 := SortByKey(r1), SortByKey(r2);
    SortedValid(s1);
    SortedValid(s2);
    FilterMap(s1);
    FilterMap(s2);
    FilterSorted(s1);
    FilterSorted(s2);
    SortedUnique(Filter(s1), Filter(s2));
  }
}

=== FILE: records.dfy ===
/**
 * The data record every request and response is built on (`WxPayDataBase`):
 * a flat mapping from field name to value that remembers insertion order,
 * as a Python `dict` does.
 *
 * The source keeps this mapping in a class-level `values = dict()`
 * (lib/wxpay_data.py:16), which every instance shares. The model gives each
 * record its own value: a record is a sequence of fields with distinct keys.
 */
module Records {
  import opened Wrappers
  import opened Errors

  /**
   * A field value. Wire data is always a string; `Nested` stands for a
   * nested mapping, which URL serialisation skips and XML emission refuses.
   * No operation of the core looks inside a nested mapping.
   */
  datatype Value = Str(s: string) | Nested

  datatype Field = Field(key: string, value: Value)

  /** Fields in insertion order. */
  type Record = seq<Field>

  /** The mapping a record denotes. */
  function ToMap(r: Record): map<string, Value>
  {
    if |r| == 0 then map[] else ToMap(r[1..])[r[0].key := r[0].value]
  }

  /** The record invariant: no key occurs twice. */
  predicate Valid(r: Record)
  {
    |r| == 0 || (r[0].key !in ToMap(r[1..]) && Valid(r[1..]))
  }

  /** Every value is a string: the record is a flat mapping. */
  predicate Flat(r: Record)
  {
    forall i :: 0 <= i < |r| ==> r[i].value.Str?
  }

  lemma {:induction false} KeyInMap(r: Record, k: string)
    ensures k in ToMap(r) <==> exists i :: 0 <= i < |r| && r[i].key == k
  {
    if |r| > 0 {
      KeyInMap(r[1..], k);
      if k in ToMap(r[1..]) {
        var i :| 0 <= i < |r[1..]| && r[1..][i].key == k;
        assert r[i + 1].key == k;
      }
      if exists i :: 0 <= i < |r| && r[i].key == k {
        var i :| 0 <= i < |r| && r[i].key == k;
        if i > 0 {
          assert r[1..][i - 1].key == k;
        }
      }
    }
  }

  /** In a valid record the mapping holds exactly the value stored in each field. */
  lemma {:induction false} FieldInMap(r: Record, i: int)
    requires Valid(r) && 0 <= i < |r|
    ensures r[i].key in ToMap(r) && ToMap(r)[r[i].key] == r[i].value
  {
    if i > 0 {
      FieldInMap(r[1..], i - 1);
      KeyInMap(r[1..], r[i].key);
    }
  }

  /** In a valid record no two positions hold the same key. */
  lemma {:induction false} ValidDistinct(r: Record, i: int, j: int)
    requires Valid(r) && 0 <= i < |r| && 0 <= j < |r| && i != j
    ensures r[i].key != r[j].key
  {
    if i == 0 {
      KeyInMap(r[1..], r[j].key);
      assert r[1..][j - 1].key == r[j].key;
    } else if j == 0 {
      KeyInMap(r[1..], r[i].key);
      assert r[1..][i - 1].key == r[i].key;
    } else {
      ValidDistinct(r[1..], i - 1, j - 1);
    }
  }

  /**
   * Presence as key membership. The source's `Is...Set` methods call
   * `hasattr(self.values, key)`, which is false for every dictionary key
   * (lib/wxpay_data.py:30, :151 and the other `Is...Set`); the intended test
   * is membership, which is what a field explicitly set to "" must pass.
   */
  function Has(r: Record, k: string): bool
  {
    k in ToMap(r)
  }

  /** A key is present exactly when some field carries it. */
  lemma HasIffField(r: Record, k: string)
    ensures Has(r, k) <==> exists i :: 0 <= i < |r| && r[i].key == k
  {
    KeyInMap(r, k);
  }

  /** `values[key]`: the stored value, or `KeyError` when the key is absent. */
  function Get(r: Record, k: string): (v: Result<Value, Error>)
    requires Valid(r)
    ensures v.Ok? <==> Has(r, k)
    ensures v.Err? ==> v.error == MissingField(k)
  {
    if k in ToMap(r) then Ok(ToMap(r)[k]) else Err(MissingField(k))
  }

  /** A successful lookup returns the value of the field that carries the key. */
  lemma GetIsField(r: Record, k: string)
    requires Valid(r) && Has(r, k)
    ensures exists i :: 0 <= i < |r| && r[i] == Field(k, Get(r, k).value)
  {
    KeyInMap(r, k);
    var i :| 0 <= i < |r| && r[i].key == k;
    FieldInMap(r, i);
  }

  /** A lookup reads the mapping the record denotes. */
  lemma GetIsLookup(r: Record, k: string)
    requires Valid(r)
    ensures Get(r, k) == if k in ToMap(r) then Ok(ToMap(r)[k]) else Err(MissingField(k))
  {
  }

  /**
   * `values[key] = value`: overwrites in place when the key is present
   * (a Python dict keeps the key's position), appends otherwise.
   */
  function Set(r: Record, k: string, v: Value): (r': Record)
    requires Valid(r)
    ensures Valid(r')
    ensures ToMap(r') == ToMap(r)[k := v]
    ensures Has(r, k) ==> |r'| == |r| && forall i :: 0 <= i < |r| ==> r'[i].key == r[i].key
    ensures !Has(r, k) ==> r' == r + [Field(k, v)]
    ensures forall x :: x in r' ==> x in r || x == Field(k, v)
    ensures forall k2 :: Get(r', k2) == if k2 == k then Ok(v) else Get(r, k2)
  {
    var r' := SetFields(r, k, v);
    forall k2
      ensures Get(r', k2) == if k2 == k then Ok(v) else Get(r, k2)
    {
      GetIsLookup(r', k2);
      GetIsLookup(r, k2);
    }
    r'
  }

  /** Apart from the key stored, the mapping is unchanged. */
  lemma SetElsewhere(r: Record, k: string, v: Value)
    requires Valid(r)
    ensures ToMap(Set(r, k, v)) - {k} == ToMap(r) - {k}
  {
    UpdateMinus(ToMap(r), k, v);
  }

  lemma UpdateMinus(m: map<string, Value>, k: string, v: Value)
    ensures m[k := v] - {k} == m - {k}
  {
  }

  /** The field-level update behind `Set`. */
  function SetFields(r: Record, k: string, v: Value): (r': Record)
    requires Valid(r)
    ensures Valid(r')
    ensures ToMap(r') == ToMap(r)[k := v]
    ensures Has(r, k) ==> |r'| == |r| && forall i :: 0 <= i < |r| ==> r'[i].key == r[i].key
    ensures !Has(r, k) ==> r' == r + [Field(k, v)]
    ensures forall x :: x in r' ==> x in r || x == Field(k, v)
  {
    if |r| == 0 then [Field(k, v)]
    else if r[0].key == k then
      UpdateTwice(ToMap(r[1..]), k, r[0].value, v);
      [Field(k, v)] + r[1..]
    else
      var rest := SetFields(r[1..], k, v);
      assert ([r[0]] + rest)[1..] == rest;
      UpdateCommute(ToMap(r[1..]), k, v, r[0].key, r[0].value);
      [r[0]] + rest
  }

  lemma UpdateTwice(m: map<string, Value>, k: string, v1: Value, v2: Value)
    ensures m[k := v1][k := v2] == m[k := v2]
  {
  }

  lemma UpdateCommute(m: map<string, Value>, k1: string, v1: Value, k2: string, v2: Value)
    requires k1 != k2
    ensures m[k1 := v1][k2 := v2] == m[k2 := v2][k1 := v1]
  {
  }

  /** Storing a string keeps a flat record flat. */
  lemma SetFlat(r: Record, k: string, v: Value)
    requires Valid(r) && Flat(r) && v.Str?
    ensures Flat(Set(r, k, v))
  {
    var r' := Set(r, k, v);
    forall i | 0 <= i < |r'|
      ensures r'[i].value.Str?
    {
      assert r'[i] in r';
    }
  }
}

=== FILE: responses.dfy ===
/**
 * The response side (`WxPayResults`): a record built from a dictionary or
 * parsed from the gateway's XML, with its signature checked unless the
 * gateway reports a communication failure.
 */
module Responses {
  import opened Wrappers
  import opened Errors
  import opened Strings
  import opened Records
  import opened Signer
  import opened XmlCodec

  const ReturnCode := "return_code"
  const Success := "SUCCESS"

  /**
   * `WxPayResults.InitFromArray` (lib/wxpay_data.py:94-99): takes the given
   * mapping as the record and checks its signature unless `noCheckSign`.
   * Line 97 lacks the colon after `if noCheckSign == False`; the model reads
   * the evident conditional.
   */
  function InitFromArray(values: Record, noCheckSign: bool, secret: string, md5: Md5): (res: Result<Record, Error>)
    requires Valid(values)
    ensures res.Ok? ==> res.value == values
    ensures noCheckSign ==> res.Ok?
    ensures !noCheckSign ==> (res.Ok? <==> CheckSign(values, secret, md5) == Pass)
    ensures res.Err? ==> res.error == SignatureMismatch
  {
    if noCheckSign then Ok(values)
    else
      match CheckSign(values, secret, md5)
      case Pass => Ok(values)
      case Fail(e) => Err(e)
  }

  /**
   * `WxPayResults.Init` (lib/wxpay_data.py:106-113): parses the response and
   * returns its mapping. When `return_code` is not `SUCCESS` the mapping is
   * returned without a signature check; otherwise only after `CheckSign`
   * passes. A response without `return_code` raises `KeyError` at line 110.
   * The operations call it on the class, `WxPayResults.Init(response)`,
   * which would need an instance; the model reads the evident call on a fresh
   * result object.
   */
  function Init(xml: string, secret: string, md5: Md5): (res: Result<Record, Error>)
    ensures FromXml(xml).Err? ==> res == Err(FromXml(xml).error)
    ensures res.Ok? ==> FromXml(xml) == res
    ensures FromXml(xml).Ok? && !Has(FromXml(xml).value, ReturnCode) ==> res == Err(MissingField(ReturnCode))
    ensures (FromXml(xml).Ok? && Has(FromXml(xml).value, ReturnCode)
             && Get(FromXml(xml).value, ReturnCode) != Ok(Str(Success))) ==> res == FromXml(xml)
    ensures res.Ok? && Get(res.value, ReturnCode) == Ok(Str(Success)) ==> CheckSign(res.value, secret, md5) == Pass
    ensures (FromXml(xml).Ok? && Get(FromXml(xml).value, ReturnCode) == Ok(Str(Success))
             && CheckSign(FromXml(xml).value, secret, md5) == Pass) ==> res == FromXml(xml)
    ensures res.Err? ==> res.error in {MalformedRecord, MissingField(ReturnCode), SignatureMismatch}
  {
    var values :- FromXml(xml);
    var code :- Get(values, ReturnCode);
    if code != Str(Success) then Ok(values)
    else
      match CheckSign(values, secret, md5)
      case Pass => Ok(values)
      case Fail(e) => Err(e)
  }

  lemma SignTagName()
    ensures IsTagName(SignKey)
  {
    assert SignKey == "sign";
  }

  /** A signed wire-safe record is still wire-safe: the signature is hex. */
  lemma SetSignWireSafe(r: Record, secret: string, md5: Md5)
    requires Valid(r) && WireSafe(r)
    ensures WireSafe(SetSign(r, secret, md5).record)
  {
    var sign := MakeSign(r, secret, md5);
    NoBracketCdataSafe(sign);
    SignTagName();
    SetWireSafe(r, SignKey, Str(sign));
  }

  /**
   * A successful response signed with the shared secret is accepted as
   * sent: `Init` parses it back and its signature verifies.
   */
  lemma InitAcceptsSignedResponse(r: Record, secret: string, md5: Md5)
    requires Valid(r) && WireSafe(r)
    requires Get(r, ReturnCode) == Ok(Str(Success))
    ensures var signed := SetSign(r, secret, md5).record;
            ToXml(signed).Ok? && Init(ToXml(signed).value, secret, md5) == Ok(signed)
  {
    var signed := SetSign(r, secret, md5).record;
    SetSignWireSafe(r, secret, md5);
    assert Get(signed, ReturnCode) == Ok(Str(Success));
    XmlRoundTrip(signed);
  }

  /**
   * A response reporting a communication failure is returned as parsed,
   * whatever its `sign` entry holds, and without raising.
   */
  lemma InitSkipsVerificationOnFailure(r: Record, secret: string, md5: Md5, code: string)
    requires Valid(r) && |r| > 0 && WireSafe(r)
    requires Get(r, ReturnCode) == Ok(Str(code)) && code != Success
    ensures ToXml(r).Ok? && Init(ToXml(r).value, secret, md5) == Ok(r)
  {
    XmlRoundTrip(r);
  }

  /**
   * A successful response whose `sign` is missing or is not the signature of
   * its other fields is rejected.
   */
  lemma InitRejectsForgedResponse(r: Record, secret: string, md5: Md5)
    requires Valid(r) && WireSafe(r)
    requires Get(r, ReturnCode) == Ok(Str(Success))
    requires GetSign(r) != Ok(Str(MakeSign(r, secret, md5)))
    ensures ToXml(r).Ok? && Init(ToXml(r).value, secret, md5) == Err(SignatureMismatch)
  {
    assert |r| > 0;
    XmlRoundTrip(r);
    var x := ToXml(r).value;
    assert FromXml(x) == Ok(r);
    assert CheckSign(r, secret, md5) == Fail(SignatureMismatch);
  }
}

=== FILE: signer.dfy ===
/**
 * Signature generation and verification (`MakeSign`, `SetSign`, `GetSign`,
 * `IsSignSet` of `WxPayDataBase` and `CheckSign` of `WxPayResults`).
 */
module Signer {
  import opened Wrappers
  import opened Errors
  import opened Strings
  import opened Records
  import opened Canonical

  /**
   * `hashlib.md5(text.encode('utf-8')).hexdigest()`, taken as a parameter:
   * any function from text to 32 lower-case hex digits. Nothing else about
   * MD5 is assumed (in particular, not that it is injective).
   */
  type Md5 = f: string -> string | IsDigestFunction(f)
    witness (s: string) => "00000000000000000000000000000000"

  /** Every text hashes to a 32-digit lower-case hex string. */
  ghost predicate IsDigestFunction(f: string -> string)
  {
    forall s :: IsLowerHexDigest(f(s))
  }

  const SignKey := "sign"

  lemma Md5Digest(md5: Md5, text: string)
    ensures IsLowerHexDigest(md5(text))
  {
  }

  /**
   * `WxPayDataBase.MakeSign`: the canonical string, then `&key=` and the
   * merchant secret, hashed and upper-cased.
   */
  function MakeSign(r: Record, secret: string, md5: Md5): (sign: string)
    requires Valid(r)
    ensures IsUpperHexDigest(sign)
  {
    var digest := md5(CanonicalString(r) + "&key=" + secret);
    Md5Digest(md5, CanonicalString(r) + "&key=" + secret);
    UpperHexDigest(digest);
    Upper(digest)
  }

  /**
   * Everything the signature sees is the kept part of the mapping: records
   * that agree on it, whatever their field order, `sign` entry, empty or
   * nested fields, have the same signature.
   */
  lemma MakeSignDependsOnlyOnKept(r1: Record, r2: Record, secret: string, md5: Md5)
    requires Valid(r1) && Valid(r2)
    requires KeptMap(ToMap(r1)) == KeptMap(ToMap(r2))
    ensures MakeSign(r1, secret, md5) == MakeSign(r2, secret, md5)
  {
    CanonicalDependsOnlyOnKept(r1, r2);
  }

  /** Insertion order does not matter: records denoting the same mapping share a signature. */
  lemma MakeSignOrderInsensitive(r1: Record, r2: Record, secret: string, md5: Md5)
    requires Valid(r1) && Valid(r2)
    requires ToMap(r1) == ToMap(r2)
    ensures MakeSign(r1, secret, md5) == MakeSign(r2, secret, md5)
  {
    MakeSignDependsOnlyOnKept(r1, r2, secret, md5);
  }

  lemma KeptMapWithout(m: map<string, Value>)
    ensures KeptMap(m) == KeptMap(m - {SignKey})
  {
  }

  /** Records that differ only in their `sign` entry have the same signature. */
  lemma MakeSignIgnoresSign(r1: Record, r2: Record, secret: string, md5: Md5)
    requires Valid(r1) && Valid(r2)
    requires ToMap(r1) - {SignKey} == ToMap(r2) - {SignKey}
    ensures MakeSign(r1, secret, md5) == MakeSign(r2, secret, md5)
  {
    KeptMapWithout(ToMap(r1));
    KeptMapWithout(ToMap(r2));
    MakeSignDependsOnlyOnKept(r1, r2, secret, md5);
  }

  /** `IsSignSet`, with presence as key membership (see `Records.Has`). */
  function IsSignSet(r: Record): bool
  {
    Has(r, SignKey)
  }

  /** `GetSign`: `values['sign']`, a `KeyError` when absent. */
  function GetSign(r: Record): (g: Result<Value, Error>)
    requires Valid(r)
    ensures g.Ok? <==> IsSignSet(r)
    ensures g.Err? ==> g.error == MissingField(SignKey)
  {
    Get(r, SignKey)
  }

  /**
   * `WxPayResults.CheckSign` as intended: fails when `sign` is absent, or
   * when it differs from the signature recomputed over the other fields.
   * The source tests `if self.IsSignSet(): raise` (lib/wxpay_data.py:82),
   * the inverse of this; see `CheckSignAsWritten`.
   */
  function CheckSign(r: Record, secret: string, md5: Md5): (o: Outcome<Error>)
    requires Valid(r)
    ensures o.Fail? ==> o.error == SignatureMismatch
    ensures !IsSignSet(r) ==> o.Fail?
    ensures o.Pass? ==> GetSign(r) == Ok(Str(MakeSign(r, secret, md5)))
  {
    if !IsSignSet(r) then Fail(SignatureMismatch)
    else if GetSign(r) == Ok(Str(MakeSign(r, secret, md5))) then Pass
    else Fail(SignatureMismatch)
  }

  datatype Signed = Signed(record: Record, sign: string)

  /**
   * `WxPayDataBase.SetSign`: computes the signature, stores it under `sign`
   * and returns it. No other field changes, and the stored signature
   * verifies.
   */
  function SetSign(r: Record, secret: string, md5: Md5): (out: Signed)
    requires Valid(r)
    ensures Valid(out.record)
    ensures IsUpperHexDigest(out.sign)
    ensures GetSign(out.record) == Ok(Str(out.sign))
    ensures ToMap(out.record) - {SignKey} == ToMap(r) - {SignKey}
    ensures CheckSign(out.record, secret, md5) == Pass
  {
    var sign := MakeSign(r, secret, md5);
    var r' := Set(r, SignKey, Str(sign));
    SetElsewhere(r, SignKey, Str(sign));
    MakeSignIgnoresSign(r', r, secret, md5);
    Signed(r', sign)
  }

  /** A stored signature other than the recomputed one is rejected. */
  lemma CheckSignRejectsWrongSign(r: Record, secret: string, md5: Md5, forged: Value)
    requires Valid(r)
    requires forged != Str(MakeSign(r, secret, md5))
    ensures CheckSign(Set(r, SignKey, forged), secret, md5) == Fail(SignatureMismatch)
  {
    var r' := Set(r, SignKey, forged);
    SetElsewhere(r, SignKey, forged);
    MakeSignIgnoresSign(r', r, secret, md5);
  }

  /**
   * `CheckSign` passes on a record exactly when its `sign` entry is what
   * `SetSign` stores when signing the rest of the record: whatever unsigned
   * record `r0` carries the other fields, the check accepts `r` iff `r`'s
   * signature is `r0`'s.
   */
  lemma CheckSignIffSetSign(r: Record, r0: Record, secret: string, md5: Md5)
    requires Valid(r) && Valid(r0)
    requires ToMap(r0) == ToMap(r) - {SignKey}
    ensures CheckSign(r, secret, md5) == Pass <==>
              IsSignSet(r) && ToMap(r)[SignKey] == Str(SetSign(r0, secret, md5).sign)
  {
    MakeSignIgnoresSign(r, r0, secret, md5);
  }

  /**
   * `CheckSign` as the source writes it (lib/wxpay_data.py:81-87), reading
   * `IsSignSet` as key membership: it raises when `sign` IS set, and
   * otherwise `GetSign` raises `KeyError`.
   */
  function CheckSignAsWritten(r: Record, secret: string, md5: Md5): (o: Outcome<Error>)
    requires Valid(r)
    ensures IsSignSet(r) ==> o == Fail(SignatureMismatch)
    ensures !IsSignSet(r) ==> o == Fail(MissingField(SignKey))
  {
    if IsSignSet(r) then Fail(SignatureMismatch)
    else
      var sign := MakeSign(r, secret, md5);
      match GetSign(r)
      case Err(e) => Fail(e)
      case Ok(v) => if v == Str(sign) then Pass else Fail(SignatureMismatch)
  }

  /** The as-written check rejects every record, signed ones included. */
  lemma CheckSignAsWrittenRejectsSigned(r: Record, secret: string, md5: Md5)
    requires Valid(r)
    ensures CheckSignAsWritten(SetSign(r, secret, md5).record, secret, md5).Fail?
    ensures CheckSignAsWritten(r, secret, md5).Fail?
    ensures CheckSign(SetSign(r, secret, md5).record, secret, md5) == Pass
  {
  }
}

=== FILE: strings.dfy ===
/**
 * String helpers the codec and the signer are built from: Python's ordering
 * of `str`, `"&".join` and its inverse `split`, prefix and substring search,
 * and the character classes the wire format uses.
 */
module Strings {
  import opened Wrappers

  // ---------------------------------------------------------------------
  // Ordering

  /**
   * Python's `<` on `str`: code-point lexicographic order, where a proper
   * prefix sorts first. (Dafny's own `<` on sequences means "proper prefix".)
   */
  predicate LexLess(a: string, b: string)
    decreases |a|
  {
    if |a| == 0 then |b| > 0
    else if |b| == 0 then false
    else if a[0] != b[0] then a[0] < b[0]
    else LexLess(a[1..], b[1..])
  }

  lemma {:induction false} LexLessIrreflexive(a: string)
    ensures !LexLess(a, a)
    decreases |a|
  {
    if |a| > 0 {
      LexLessIrreflexive(a[1..]);
    }
  }

  lemma {:induction false} LexLessAsymmetric(a: string, b: string)
    requires LexLess(a, b)
    ensures !LexLess(b, a)
    decreases |a|
  {
    if |a| > 0 && |b| > 0 && a[0] == b[0] {
      LexLessAsymmetric(a[1..], b[1..]);
    }
  }

  lemma {:induction false} LexLessTransitive(a: string, b: string, c: string)
    requires LexLess(a, b) && LexLess(b, c)
    ensures LexLess(a, c)
    decreases |a|
  {
    if |a| > 0 && |b| > 0 && |c| > 0 && a[0] == b[0] && b[0] == c[0] {
      LexLessTransitive(a[1..], b[1..], c[1..]);
    }
  }

  lemma {:induction false} LexLessTotal(a: string, b: string)
    requires a != b
    ensures LexLess(a, b) || LexLess(b, a)
    decreases |a|
  {
    if |a| > 0 && |b| > 0 && a[0] == b[0] {
      assert a == [a[0]] + a[1..] && b == [b[0]] + b[1..];
      LexLessTotal(a[1..], b[1..]);
    }
  }

  // ---------------------------------------------------------------------
  // Joining and splitting on a separator

  /** Python's `sep.join(parts)` for a one-character separator. */
  function Join(parts: seq<string>, sep: char): string
  {
    if |parts| == 0 then ""
    else if |parts| == 1 then parts[0]
    else parts[0] + [sep] + Join(parts[1..], sep)
  }

  /** Python's `s.split(sep)`: never empty, `""` splits to `[""]`. */
  function Split(s: string, sep: char): (parts: seq<string>)
    ensures |parts| > 0
    decreases |s|
  {
    if |s| == 0 then [""]
    else
      var rest := Split(s[1..], sep);
      if s[0] == sep then [""] + rest
      else [[s[0]] + rest[0]] + rest[1..]
  }

  /** Splitting a separator-free prefix glues it onto the first part. */
  lemma {:induction false} SplitPrefix(a: string, t: string, sep: char)
    requires sep !in a
    ensures Split(a + t, sep) == [a + Split(t, sep)[0]] + Split(t, sep)[1..]
    decreases |a|
  {
    if |a| > 0 {
      assert (a + t)[1..] == a[1..] + t;
      assert (a + t)[0] == a[0];
      SplitPrefix(a[1..], t, sep);
      assert [a[0]] + (a[1..] + Split(t, sep)[0]) == a + Split(t, sep)[0];
    } else {
      var parts := Split(t, sep);
      assert a + t == t;
      assert a + parts[0] == parts[0];
      assert parts == [parts[0]] + parts[1..];
    }
  }

  /** `Split` undoes `Join` when no part contains the separator. */
  lemma {:induction false} SplitJoin(parts: seq<string>, sep: char)
    requires |parts| > 0
    requires forall i :: 0 <= i < |parts| ==> sep !in parts[i]
    ensures Split(Join(parts, sep), sep) == parts
    decreases |parts|
  {
    if |parts| == 1 {
      SplitPrefix(parts[0], "", sep);
      assert parts[0] + "" == parts[0];
    } else {
      var tail := Join(parts[1..], sep);
      SplitJoin(parts[1..], sep);
      assert Join(parts, sep) == parts[0] + ([sep] + tail);
      SplitPrefix(parts[0], [sep] + tail, sep);
      assert ([sep] + tail)[1..] == tail;
      assert Split([sep] + tail, sep) == [""] + Split(tail, sep);
      assert parts[0] + "" == parts[0];
      assert parts == [parts[0]] + parts[1..];
    }
  }

  // ---------------------------------------------------------------------
  // Prefixes and searching

  predicate StartsWith(s: string, prefix: string)
  {
    |prefix| <= |s| && s[..|prefix|] == prefix
  }

  /** `pat` occurs in `s` starting at index `i`. */
  predicate OccursAt(s: string, pat: string, i: int)
  {
    0 <= i && i + |pat| <= |s| && s[i..i + |pat|] == pat
  }

  /** Index of the first occurrence of `pat` in `s`, if any. */
  function FindSub(s: string, pat: string): (r: Option<nat>)
    ensures r.Some? ==> OccursAt(s, pat, r.value)
    ensures r.Some? ==> forall j :: 0 <= j < r.value ==> !OccursAt(s, pat, j)
    ensures r.None? ==> forall j :: !OccursAt(s, pat, j)
    decreases |s|
  {
    if |s| < |pat| then None
    else if s[..|pat|] == pat then Some(0)
    else
      match FindSub(s[1..], pat)
      case None =>
        forall j
          ensures !OccursAt(s, pat, j)
        {
          if j > 0 {
            OccursShift(s, pat, j);
          }
        }
        None
      case Some(i) =>
        OccursShift(s, pat, i + 1);
        forall j | 0 <= j < i + 1
          ensures !OccursAt(s, pat, j)
        {
          if j > 0 {
            OccursShift(s, pat, j);
          }
        }
        Some(i + 1)
  }

  lemma ConcatAssoc(a: string, b: string, c: string)
    ensures (a + b) + c == a + (b + c)
  {
  }

  /** An occurrence past the first character is an occurrence in the tail. */
  lemma OccursShift(s: string, pat: string, j: int)
    requires |s| > 0 && j > 0
    ensures OccursAt(s, pat, j) <==> OccursAt(s[1..], pat, j - 1)
  {
    if j + |pat| <= |s| {
      assert s[j..j + |pat|] == s[1..][j - 1..j - 1 + |pat|];
    }
  }

  /**
   * Longest prefix of `s` whose characters all satisfy `p`: every character
   * of it satisfies `p` and the character right after it (if any) does not.
   */
  function TakeWhile(s: string, p: char -> bool): (t: string)
    ensures t <= s
    ensures forall i :: 0 <= i < |t| ==> p(t[i])
    ensures |t| < |s| ==> !p(s[|t|])
    decreases |s|
  {
    if |s| == 0 || !p(s[0]) then ""
    else [s[0]] + TakeWhile(s[1..], p)
  }

  /** The longest `p`-prefix of `a + b` is `a` when `a` is all `p` and `b` does not start with `p`. */
  lemma TakeWhileConcat(a: string, b: string, p: char -> bool)
    requires forall i :: 0 <= i < |a| ==> p(a[i])
    requires |b| > 0 && !p(b[0])
    ensures TakeWhile(a + b, p) == a
  {
    var t := TakeWhile(a + b, p);
    assert t == (a + b)[..|t|];
    assert (a + b)[..|a|] == a;
  }

  // ---------------------------------------------------------------------
  // Character classes

  predicate IsDigit(c: char)
  {
    '0' <= c <= '9'
  }

  /**
   * Python's `str.isnumeric()`, restricted to ASCII: a non-empty string of
   * decimal digits.
   */
  predicate IsNumeric(s: string)
  {
    |s| > 0 && forall i :: 0 <= i < |s| ==> IsDigit(s[i])
  }

  predicate IsLowerHexChar(c: char)
  {
    IsDigit(c) || 'a' <= c <= 'f'
  }

  predicate IsUpperHexChar(c: char)
  {
    IsDigit(c) || 'A' <= c <= 'F'
  }

  /** The shape of `hashlib.md5(..).hexdigest()`: 32 lower-case hex digits. */
  predicate IsLowerHexDigest(s: string)
  {
    |s| == 32 && forall i :: 0 <= i < |s| ==> IsLowerHexChar(s[i])
  }

  /** 32 upper-case hex digits: the shape of a signature. */
  predicate IsUpperHexDigest(s: string)
  {
    |s| == 32 && forall i :: 0 <= i < |s| ==> IsUpperHexChar(s[i])
  }

  function UpperChar(c: char): char
  {
    if 'a' <= c <= 'z' then (c as int - 32) as char else c
  }

  /** Python's `str.upper()` on ASCII text. */
  function Upper(s: string): string
  {
    seq(|s|, i requires 0 <= i < |s| => UpperChar(s[i]))
  }

  /** Upper-casing a lower-case hex digest yields an upper-case hex digest. */
  lemma UpperHexDigest(d: string)
    requires IsLowerHexDigest(d)
    ensures IsUpperHexDigest(Upper(d))
  {
    forall i | 0 <= i < |d|
      ensures IsUpperHexChar(Upper(d)[i])
    {
      assert IsLowerHexChar(d[i]);
    }
  }
}

=== FILE: wrappers.dfy ===
/** Failure-compatible result types shared by every module of the model. */
module Wrappers {

  datatype Option<+T> = None | Some(value: T)

  /** A value or an error; usable with `:-`. */
  datatype Result<+T, +E> = Ok(value: T) | Err(error: E) {

    predicate IsFailure() {
      Err?
    }

    function PropagateFailure<U>(): Result<U, E>
      requires Err?
    {
      Err(error)
    }

    function Extract(): T
      requires Ok?
    {
      value
    }
  }

  /** A check that either passes or fails with an error and carries no value. */
  datatype Outcome<+E> = Pass | Fail(error: E)
}

/**
 * The failures the gateway client reports. The source raises a single
 * exception class with a message; the model distinguishes the causes.
 */
module Errors {

  datatype Error =
    /** A field the operation requires is absent (validation step). */
    | MissingRequired(field: string)
    /** None of a group of alternative fields is present (validation step). */
    | MissingOneOf(fields: seq<string>)
    /** A read of a key the record does not hold (Python's `KeyError`). */
    | MissingField(field: string)
    /** An empty or non-flat record on the way out, unparsable XML on the way in. */
    | MalformedRecord
    /** The stored `sign` is absent or differs from the recomputed one. */
    | SignatureMismatch
}

=== FILE: xml_codec.dfy ===
/**
 * The wire codec (`ToXml` and `FromXml` of `WxPayDataBase`): a record is sent
 * as `<xml>` followed by one element per field and `</xml>`. Values made only
 * of digits are written bare, every other value inside a CDATA section.
 *
 * The source parses responses with PHP library calls that do not exist in
 * Python (lib/wxpay_data.py:50). The model's parser reads the flat form that
 * `ToXml` writes: one level of elements, no attributes, no entities.
 */
module XmlCodec {
  import opened Wrappers
  import opened Errors
  import opened Strings
  import opened Records

  const XmlOpen := "<xml>"
  const XmlClose := "</xml>"
  const CdataOpen := "<![CDATA["
  const CdataClose := "]]>"

  // ---------------------------------------------------------------------
  // Which records the wire form can carry

  /** Characters allowed in an element name: ASCII letters, digits and `_`. */
  predicate IsTagChar(c: char)
  {
    'a' <= c <= 'z' || 'A' <= c <= 'Z' || IsDigit(c) || c == '_'
  }

  predicate IsTagName(k: string)
  {
    |k| > 0 && forall i :: 0 <= i < |k| ==> IsTagChar(k[i])
  }

  /** The value cannot end a CDATA section early: it holds no `]]>`. */
  predicate CdataSafe(v: string)
  {
    FindSub(v, CdataClose).None?
  }

  /** A field the wire form carries unchanged. */
  predicate WireSafeField(f: Field)
  {
    IsTagName(f.key) && f.value.Str? && CdataSafe(f.value.s)
  }

  predicate WireSafe(r: Record)
  {
    forall i :: 0 <= i < |r| ==> WireSafeField(r[i])
  }

  /** Storing a wire-safe field keeps a wire-safe record wire-safe. */
  lemma SetWireSafe(r: Record, k: string, v: Value)
    requires Valid(r) && WireSafe(r) && WireSafeField(Field(k, v))
    ensures WireSafe(Set(r, k, v))
  {
    var r' := Set(r, k, v);
    forall i | 0 <= i < |r'|
      ensures WireSafeField(r'[i])
    {
      assert r'[i] in r';
      if r'[i] != Field(k, v) {
        var j :| 0 <= j < |r| && r[j] == r'[i];
      }
    }
  }

  /** A value without `]` cannot contain `]]>`. */
  lemma NoBracketCdataSafe(v: string)
    requires forall i :: 0 <= i < |v| ==> v[i] != ']'
    ensures CdataSafe(v)
  {
    forall i
      ensures !OccursAt(v, CdataClose, i)
    {
      if 0 <= i && i + 3 <= |v| {
        assert v[i..i + 3][0] == v[i];
      }
    }
  }

  // ---------------------------------------------------------------------
  // Writing

  function CloseTag(k: string): string
  {
    "</" + k + ">"
  }

  /** The text of one element: bare digits, or a CDATA section. */
  function Content(v: string): string
  {
    if IsNumeric(v) then v else CdataOpen + v + CdataClose
  }

  /** `"<{0}>{1}</{0}>"` or `"<{0}><![CDATA[{1}]]></{0}>"` (lib/wxpay_data.py:38-41, closing tag as intended). */
  function Element(f: Field): string
    requires f.value.Str?
  {
    "<" + f.key + ">" + Content(f.value.s) + CloseTag(f.key)
  }

  function Elements(r: Record): string
    requires Flat(r)
  {
    if |r| == 0 then "" else Element(r[0]) + Elements(r[1..])
  }

  /**
   * `WxPayDataBase.ToXml` (lib/wxpay_data.py:33-43): refuses an empty record
   * and a record that is not a flat mapping of strings; otherwise writes the
   * elements in record order between `<xml>` and `</xml>`.
   */
  function ToXml(r: Record): (x: Result<string, Error>)
    ensures x.Err? <==> |r| == 0 || !Flat(r)
    ensures x.Err? ==> x.error == MalformedRecord
    ensures x.Ok? ==> StartsWith(x.value, XmlOpen)
  {
    if |r| == 0 || !Flat(r) then Err(MalformedRecord)
    else Ok(XmlOpen + (Elements(r) + XmlClose))
  }

  // ---------------------------------------------------------------------
  // Reading

  predicate NotLt(c: char)
  {
    c != '<'
  }

  datatype Text = Text(text: string, rest: string)

  /** The text of an element: a CDATA section, or the characters up to the next `<`. */
  function ParseContent(body: string): (p: Result<Text, Error>)
    ensures p.Ok? ==> |p.value.rest| <= |body|
    ensures p.Err? ==> p.error == MalformedRecord
  {
    if StartsWith(body, CdataOpen) then
      var inner := body[|CdataOpen|..];
      match FindSub(inner, CdataClose)
      case None => Err(MalformedRecord)
      case Some(i) => Ok(Text(inner[..i], inner[i + |CdataClose|..]))
    else
      var t := TakeWhile(body, NotLt);
      Ok(Text(t, body[|t|..]))
  }

  datatype Parsed = Parsed(field: Field, rest: string)

  /** One element `<k>text</k>` at the front of `s`, and what follows it. */
  function ParseElement(s: string): (p: Result<Parsed, Error>)
    ensures p.Ok? ==> |p.value.rest| < |s| && p.value.field.value.Str?
    ensures p.Ok? ==> IsTagName(p.value.field.key)
    ensures p.Err? ==> p.error == MalformedRecord
  {
    if |s| == 0 || s[0] != '<' then Err(MalformedRecord)
    else
      var tag := TakeWhile(s[1..], IsTagChar);
      var afterTag := s[1 + |tag|..];
      if |tag| == 0 || |afterTag| == 0 || afterTag[0] != '>' then Err(MalformedRecord)
      else
        match ParseContent(afterTag[1..])
        case Err(e) => Err(e)
        case Ok(c) =>
          var close := CloseTag(tag);
          if StartsWith(c.rest, close) then Ok(Parsed(Field(tag, Str(c.text)), c.rest[|close|..]))
          else Err(MalformedRecord)
  }

  lemma ConsValid(f: Field, fs: Record)
    requires Valid(fs) && Flat(fs) && f.value.Str? && f.key !in ToMap(fs)
    ensures Valid([f] + fs) && Flat([f] + fs)
  {
    assert ([f] + fs)[1..] == fs;
  }

  /**
   * Elements up to the closing `</xml>`. A tag that occurs twice is refused,
   * so the result is a record (distinct keys) of string values.
   */
  function ParseFields(s: string): (r: Result<Record, Error>)
    ensures r.Ok? ==> Valid(r.value) && Flat(r.value)
    ensures r.Err? ==> r.error == MalformedRecord
    decreases |s|
  {
    if s == XmlClose then Ok([])
    else
      match ParseElement(s)
      case Err(e) => Err(e)
      case Ok(p) =>
        match ParseFields(p.rest)
        case Err(e) => Err(e)
        case Ok(fs) =>
          if p.field.key in ToMap(fs) then Err(MalformedRecord)
          else
            ConsValid(p.field, fs);
            Ok([p.field] + fs)
  }

  /**
   * `WxPayDataBase.FromXml` (lib/wxpay_data.py:46-51): empty input is an
   * error; otherwise the flat element list inside `<xml>...</xml>`.
   */
  function FromXml(x: string): (r: Result<Record, Error>)
    ensures x == "" ==> r == Err(MalformedRecord)
    ensures r.Ok? ==> Valid(r.value) && Flat(r.value)
    ensures r.Err? ==> r.error == MalformedRecord
  {
    if |x| == 0 then Err(MalformedRecord)
    else if !StartsWith(x, XmlOpen) then Err(MalformedRecord)
    else ParseFields(x[|XmlOpen|..])
  }

  // ---------------------------------------------------------------------
  // Round trip

  /** The first `]]>` after a CDATA-safe value is the one that closes it. */
  lemma CdataCloseFound(v: string, rest: string)
    requires CdataSafe(v)
    ensures FindSub(v + CdataClose + rest, CdataClose) == Some(|v|)
  {
    var s := v + CdataClose + rest;
    assert s[|v|..|v| + 3] == CdataClose;
    assert OccursAt(s, CdataClose, |v|);
    forall i | 0 <= i < |v|
      ensures !OccursAt(s, CdataClose, i)
    {
      NoEarlyCdataClose(v, rest, i);
    }
  }

  lemma NoEarlyCdataClose(v: string, rest: string, i: int)
    requires CdataSafe(v) && 0 <= i < |v|
    ensures !OccursAt(v + CdataClose + rest, CdataClose, i)
  {
    var s := v + CdataClose + rest;
    if i + 3 <= |v| {
      assert s[i..i + 3] == v[i..i + 3];
      assert !OccursAt(v, CdataClose, i);
    } else {
      assert s[i + 2] == ']';
    }
  }

  lemma ContentRoundTrip(v: string, tail: string)
    requires CdataSafe(v)
    requires |tail| > 0 && tail[0] == '<'
    ensures ParseContent(Content(v) + tail) == Ok(Text(v, tail))
  {
    if IsNumeric(v) {
      BareRoundTrip(v, tail);
    } else {
      CdataRoundTrip(v, tail);
    }
  }

  /** A bare value runs up to the next `<`. */
  lemma BareRoundTrip(v: string, tail: string)
    requires IsNumeric(v)
    requires |tail| > 0 && tail[0] == '<'
    ensures ParseContent(v + tail) == Ok(Text(v, tail))
  {
    var body := v + tail;
    assert body[0] == v[0];
    assert !StartsWith(body, CdataOpen);
    TakeWhileConcat(v, tail, NotLt);
    assert body[|v|..] == tail;
  }

  /** A CDATA section ends at its first `]]>`, which is its own when the value holds none. */
  lemma CdataRoundTrip(v: string, tail: string)
    requires CdataSafe(v)
    ensures ParseContent(CdataOpen + v + CdataClose + tail) == Ok(Text(v, tail))
  {
    var body := CdataOpen + v + CdataClose + tail;
    assert body[..|CdataOpen|] == CdataOpen;
    var inner := body[|CdataOpen|..];
    assert inner == v + CdataClose + tail;
    CdataCloseFound(v, tail);
    assert inner[..|v|] == v;
    assert inner[|v| + |CdataClose|..] == tail;
  }

  /** An element followed by more input, regrouped from the front. */
  lemma ElementThenRest(f: Field, rest: string)
    requires f.value.Str?
    ensures Element(f) + rest
         == "<" + (f.key + (">" + (Content(f.value.s) + (CloseTag(f.key) + rest))))
  {
    var k, c, close := f.key, Content(f.value.s), CloseTag(f.key);
    ConcatAssoc("<" + k + ">" + c, close, rest);
    ConcatAssoc("<" + k + ">", c, close + rest);
    ConcatAssoc("<" + k, ">", c + (close + rest));
    ConcatAssoc("<", k, ">" + (c + (close + rest)));
  }

  lemma ElementRoundTrip(f: Field, rest: string)
    requires WireSafeField(f)
    ensures ParseElement(Element(f) + rest) == Ok(Parsed(f, rest))
  {
    var k, v := f.key, f.value.s;
    var close := CloseTag(k);
    var tail := close + rest;
    var body := Content(v) + tail;
    var s := Element(f) + rest;
    ElementThenRest(f, rest);
    assert s[1..] == k + (">" + body);
    TakeWhileConcat(k, ">" + body, IsTagChar);
    assert s[1 + |k|..] == ">" + body;
    assert (">" + body)[1..] == body;
    assert tail[0] == '<';
    ContentRoundTrip(v, tail);
    assert tail[..|close|] == close;
    assert tail[|close|..] == rest;
  }

  /** A stream of elements never starts like `</xml>`. */
  lemma ElementNotClose(f: Field, rest: string)
    requires WireSafeField(f)
    ensures Element(f) + rest != XmlClose
  {
    var s := Element(f) + rest;
    assert s[1] == f.key[0];
    assert XmlClose[1] == '/';
  }

  /** One parsed element in front of a parsed remainder. */
  lemma ParseFieldsCons(s: string, f: Field, rest: string, fs: Record)
    requires s != XmlClose
    requires ParseElement(s) == Ok(Parsed(f, rest))
    requires ParseFields(rest) == Ok(fs)
    requires f.key !in ToMap(fs)
    ensures ParseFields(s) == Ok([f] + fs)
  {
  }

  /** The first field of a wire-safe record, and the rest of it. */
  lemma WireSafeCons(r: Record)
    requires Valid(r) && WireSafe(r) && |r| > 0
    ensures WireSafeField(r[0]) && Valid(r[1..]) && WireSafe(r[1..])
    ensures r[0].key !in ToMap(r[1..])
    ensures r == [r[0]] + r[1..]
  {
    forall i | 0 <= i < |r[1..]|
      ensures WireSafeField(r[1..][i])
    {
      assert r[1..][i] == r[i + 1];
    }
  }

  lemma ElementsCons(r: Record)
    requires Flat(r) && |r| > 0
    ensures Flat(r[1..])
    ensures Elements(r) + XmlClose == Element(r[0]) + (Elements(r[1..]) + XmlClose)
  {
    ConcatAssoc(Element(r[0]), Elements(r[1..]), XmlClose);
  }

  lemma {:induction false} FieldsRoundTrip(r: Record)
    requires Valid(r) && WireSafe(r)
    ensures ParseFields(Elements(r) + XmlClose) == Ok(r)
  {
    if |r| == 0 {
      assert Elements(r) + XmlClose == XmlClose;
    } else {
      WireSafeCons(r);
      ElementsCons(r);
      var rest := Elements(r[1..]) + XmlClose;
      ElementNotClose(r[0], rest);
      ElementRoundTrip(r[0], rest);
      FieldsRoundTrip(r[1..]);
      ParseFieldsCons(Element(r[0]) + rest, r[0], rest, r[1..]);
    }
  }

  lemma FromXmlOfBody(body: string)
    ensures FromXml(XmlOpen + body) == ParseFields(body)
  {
    var x := XmlOpen + body;
    assert x[..|XmlOpen|] == XmlOpen;
    assert x[|XmlOpen|..] == body;
  }

  /**
   * Reading back what `ToXml` wrote gives the same record, fields and order,
   * for every non-empty record whose keys are element names and whose values
   * hold no `]]>`.
   */
  lemma XmlRoundTrip(r: Record)
    requires Valid(r) && |r| > 0 && WireSafe(r)
    ensures ToXml(r).Ok?
    ensures FromXml(ToXml(r).value) == Ok(r)
  {
    assert Flat(r);
    var body := Elements(r) + XmlClose;
    var x := XmlOpen + body;
    assert ToXml(r) == Ok(x);
    FromXmlOfBody(body);
    FieldsRoundTrip(r);
  }

  // ---------------------------------------------------------------------
  // The closing tag as the source writes it

  /** lib/wxpay_data.py:39 writes a bare value's closing tag as `</key`, without `>`. */
  function ElementAsWritten(f: Field): string
    requires f.value.Str?
  {
    if IsNumeric(f.value.s) then "<" + (f.key + (">" + (f.value.s + ("</" + f.key))))
    else Element(f)
  }

  function ElementsAsWritten(r: Record): string
    requires Flat(r)
  {
    if |r| == 0 then "" else ElementAsWritten(r[0]) + ElementsAsWritten(r[1..])
  }

  /**
   * `ToXml` with the closing tag of line 39 as written. It refuses the same
   * records as `ToXml` and differs from it only on records holding a numeric
   * value.
   */
  function ToXmlAsWritten(r: Record): (x: Result<string, Error>)
    ensures x.Err? <==> |r| == 0 || !Flat(r)
    ensures x.Err? ==> x.error == MalformedRecord
    ensures Flat(r) && (forall i :: 0 <= i < |r| ==> !IsNumeric(r[i].value.s)) ==> x == ToXml(r)
  {
    if |r| == 0 || !Flat(r) then Err(MalformedRecord)
    else
      ElementsAsWrittenAgree(r);
      Ok(XmlOpen + (ElementsAsWritten(r) + XmlClose))
  }

  /** Without numeric values the as-written elements are the corrected ones. */
  lemma {:induction false} ElementsAsWrittenAgree(r: Record)
    requires Flat(r)
    ensures (forall i :: 0 <= i < |r| ==> !IsNumeric(r[i].value.s)) ==> ElementsAsWritten(r) == Elements(r)
  {
    if |r| > 0 && forall i :: 0 <= i < |r| ==> !IsNumeric(r[i].value.s) {
      assert forall i :: 0 <= i < |r[1..]| ==> r[1..][i] == r[i + 1];
      ElementsAsWrittenAgree(r[1..]);
    }
  }

  /** A bare element written without `>` cannot be read back. */
  lemma ElementAsWrittenBreaks(f: Field, rest: string)
    requires WireSafeField(f) && IsNumeric(f.value.s)
    requires |rest| > 0 && rest[0] == '<'
    ensures ParseElement(ElementAsWritten(f) + rest).Err?
  {
    var k, v := f.key, f.value.s;
    var tail := "</" + (k + rest);
    var s := ElementAsWritten(f) + rest;
    assert s == "<" + (k + (">" + (v + tail)));
    assert s[1..] == k + (">" + (v + tail));
    TakeWhileConcat(k, ">" + (v + tail), IsTagChar);
    assert s[1 + |k|..] == ">" + (v + tail);
    assert (">" + (v + tail))[1..] == v + tail;
    assert Content(v) == v;
    ContentRoundTrip(v, tail);
    var close := CloseTag(k);
    assert tail[|k| + 2] == '<';
    assert close[|k| + 2] == '>';
    assert !StartsWith(tail, close);
  }

  lemma ElementsAsWrittenCons(r: Record)
    requires Flat(r) && |r| > 0
    ensures Flat(r[1..])
    ensures ElementsAsWritten(r) + XmlClose == ElementAsWritten(r[0]) + (ElementsAsWritten(r[1..]) + XmlClose)
  {
    ConcatAssoc(ElementAsWritten(r[0]), ElementsAsWritten(r[1..]), XmlClose);
  }

  lemma {:induction false} ElementsAsWrittenBreak(r: Record)
    requires Valid(r) && WireSafe(r)
    requires exists i :: 0 <= i < |r| && IsNumeric(r[i].value.s)
    ensures ParseFields(ElementsAsWritten(r) + XmlClose).Err?
  {
    WireSafeCons(r);
    ElementsAsWrittenCons(r);
    var rest := ElementsAsWritten(r[1..]) + XmlClose;
    assert rest[0] == '<';
    if IsNumeric(r[0].value.s) {
      var s := ElementAsWritten(r[0]) + rest;
      assert s[1] == r[0].key[0];
      ElementAsWrittenBreaks(r[0], rest);
    } else {
      ElementNotClose(r[0], rest);
      ElementRoundTrip(r[0], rest);
      var i :| 0 <= i < |r| && IsNumeric(r[i].value.s);
      assert r[1..][i - 1] == r[i];
      ElementsAsWrittenBreak(r[1..]);
    }
  }

  /**
   * With the source's closing tag, any record holding a numeric value (an
   * amount such as `total_fee`) does not survive the trip through XML, while
   * the corrected `ToXml` round-trips it.
   */
  lemma ToXmlAsWrittenBreaksRoundTrip(r: Record)
    requires Valid(r) && WireSafe(r)
    requires exists i :: 0 <= i < |r| && IsNumeric(r[i].value.s)
    ensures ToXmlAsWritten(r).Ok? && FromXml(ToXmlAsWritten(r).value).Err?
    ensures FromXml(ToXml(r).value) == Ok(r)
  {
    var body := ElementsAsWritten(r) + XmlClose;
    assert ToXmlAsWritten(r) == Ok(XmlOpen + body);
    FromXmlOfBody(body);
    ElementsAsWrittenBreak(r);
    XmlRoundTrip(r);
  }
}
